=== FILE: README.md ===
# radarsync in Dafny

A verified model of the core of radarsync, a command-line tool that sends
music files to a phone running the Doppler app. The model covers both halves
of the tool:

- **The `doppler-ws` client library.**
  - The pairing client (`TransferClient`) keeps a mailbox of server messages: a message that arrives before anyone asks for it is queued, not lost.
  - The client waits for the pairing code, a candidate device and the LAN URL.
  - It requests a saved device and confirms the chosen candidate.
  - Server messages carry no tag, and the model decodes them the way serde's untagged union does.
  - The device client (`DeviceClient`) checks MIME types, including the `x-` fallback, and file extensions.
  - `DeviceClient` takes a file's base name before uploading it, and treats any response from the device as a successful upload: the status is never examined.
- **The `radarsync` binary.**
  - It maps the `-q`/`-v` flags to a log level.
  - It runs the pairing flow.
  - It decides whether to save the paired device.
  - It chooses which files to send.
  - Its upload loop sends the files one at a time and stops at the first failure, reporting that file's path.

The modules follow the source:

| module | file |
|---|---|
| `Results` | `Option`, `Result` |
| `Errors` | `doppler-ws/src/error.rs` |
| `Model` | `doppler-ws/src/model.rs` |
| `Mailbox` | `next_msg` in `doppler-ws/src/lib.rs` |
| `Transfer` | the rest of `lib.rs` |
| `Paths` | the `std::path` queries the device client uses |
| `DeviceApi` | `doppler-ws/src/device.rs` |
| `Radarsync` | `radarsync/src/main.rs` |

**What the model takes as inputs.** Every operation is a pure function, apart from the whole run (`Radarsync.AppMain`, with its second half `Radarsync.SaveAndUpload`) and the upload loop (`Radarsync.UploadAll`, used through `Radarsync.UploadSelection`), which are methods. Everything the program would learn from the outside world arrives as a parameter:

- **The websocket.** The frames the server will send, as a sequence of `Frame`s:
  - a text frame, whose body either parsed as JSON or did not;
  - a non-text frame;
  - a transport error.
- **The message decoder.** `Mailbox` takes it as a parameter, and `Transfer` supplies `Model.DecodeApiResponse`.
- **HTTP and URLs.** The status of the saved-device request, which LAN URLs `Url::parse` accepts, the outcome of the device's `GET /info`, and the outcome of each upload request.
- **The device library database.** Its answers to the two lookups, and whether adding a device succeeded.
- **The file system.** For each directory argument, what walking it found, or how the walk failed. For each file, whether it could be opened and its length.
- **MIME guessing.** For each file, the MIME types `mime_guess` would guess.

A client is a value. Each operation returns the client it leaves behind, which holds:

- the queue;
- the frames still unread;
- a record of everything the client sent.

## Model

| member | source | states |
|---|---|---|
| Model.DecodeApiResponse | doppler-ws/src/model.rs:33-45 | A message decodes as the first variant, in declaration order, whose decoder accepts the JSON, with that decoder's contents. Nothing decodes exactly when no variant's decoder accepts it. |
| Model.ForRequest | doppler-ws/src/model.rs:20-27 | The token form of a device has no name and no id, and keeps the `user` and `device` keys. |
| Model.ForRequestIdempotent | doppler-ws/src/model.rs:20-27 | Stripping a device's identity twice gives the same result as stripping it once. |
| Model.ForRequestForgetsIdentity | doppler-ws/src/model.rs:20-27 | Two devices have equal token forms exactly when their `user` and `device` keys agree. Name and id never matter. |
| Model.DecodeEncodeDevice | doppler-ws/src/model.rs:11-16 | A saved device serialised to JSON decodes back to itself. Absent name/id fields are written as `null`. |
| Model.DecodeEncode | doppler-ws/src/model.rs:35-45 | Every server message, serialised without a tag, decodes back to the same variant with the same contents. So the untagged union never confuses its own messages. |
| Model.CodeWinsOverlaps | doppler-ws/src/model.rs:35-45 | Any object with a string `code` field decodes as a Code message, whatever else it carries. The Code variant is tried first. |
| Model.DecodedVariantHasItsFields | doppler-ws/src/model.rs:35-45 | A decoded Device message had string `type` and `device` fields and no string `code`. A decoded LanUrl message had a string `url_lan` and matched neither earlier variant. |
| Model.DeviceWinsOverLanUrl | doppler-ws/src/model.rs:35-45 | An object carrying both the Device fields and a `url_lan` decodes as a Device message, because Device is declared before LanUrl. |
| Model.AbsentIsNull | doppler-ws/src/model.rs:52-58 | For every message, an absent `is_saved` or `push_token` field decodes exactly like a `null` one. |
| Model.ReportedIdIsWireDevice | doppler-ws/src/model.rs:63-65 | The id of a decoded candidate is exactly the string in its wire field `device`. |
| Model.UnknownFieldIgnored | doppler-ws/src/model.rs:35-45 | Adding a field that no variant names never changes how a message decodes. |
| Mailbox.Position | doppler-ws/src/lib.rs:138 | Returns the earliest queued message the filter accepts, if any. Otherwise the filter accepts nothing queued. |
| Mailbox.RemoveAt | doppler-ws/src/lib.rs:139 | Taking the match out of the queue keeps every other message, in order, and loses exactly that message. |
| Mailbox.ReadWire | doppler-ws/src/lib.rs:141-153 | The read loop never lengthens the stream. An Ok result satisfies the filter. Its only errors are end-of-stream, a websocket error and a decode error. |
| Mailbox.ReadWireLeavesSuffix | doppler-ws/src/lib.rs:141 | What the read loop leaves unread is a suffix of the stream: it only consumes frames from the front. |
| Mailbox.NextMsg | doppler-ws/src/lib.rs:133-155 | If a queued message matches, the earliest match is returned and removed, and the stream is not read. Otherwise the read loop runs. |
| Mailbox.ReadWireSkip | doppler-ws/src/lib.rs:141-151 | A non-text frame, or a message the filter rejects, is passed over. What it carried goes to the back of the queue. |
| Mailbox.NonTextIgnored | doppler-ws/src/lib.rs:142 | A non-text frame is neither returned nor queued. Reading continues as if it were absent. |
| Mailbox.ReadWireStop | doppler-ws/src/lib.rs:141-145 | A transport error, an undecodable text frame or an accepted message ends the loop. The queue is unchanged, and the result is decided by that frame. |
| Mailbox.ReadWireEofIffAllSkippable | doppler-ws/src/lib.rs:141-153 | The call ends with `UnexpectedEof` exactly when every frame left on the stream could be passed over. |
| Mailbox.ReadWireEofQueuesAll | doppler-ws/src/lib.rs:148-153 | When the stream runs out, it is fully drained and every message it carried is queued in arrival order. |
| Mailbox.ReadWireStopsAtFirstUnskippable | doppler-ws/src/lib.rs:141-151 | Otherwise the loop stops at the first frame it cannot pass over. The result comes from that frame, and everything before it is queued in order. |
| Mailbox.ReadWireStopFrame | doppler-ws/src/lib.rs:141-145 | When the stream does not run out, the last frame read cannot be passed over, and it decides the result. |
| Mailbox.ReadWireSkippedBeforeStop | doppler-ws/src/lib.rs:141-151 | Every frame before the stopping frame was passed over. |
| Mailbox.ReadWireStopQueue | doppler-ws/src/lib.rs:147-148 | When the loop stops on a frame, the queue is the old queue followed by the messages of the frames before it, in order. |
| Mailbox.ReadWireLosesNothing | doppler-ws/src/lib.rs:141-151 | The new queue, followed by the returned message, is exactly the old queue followed by every message read. No message is lost or duplicated. |
| Mailbox.ReadWireQueuesOnlyRejected | doppler-ws/src/lib.rs:144-148 | The old queue stays a prefix, and every message added to it is one the filter rejects. |
| Mailbox.AwaitOnEmptyQueue | doppler-ws/src/lib.rs:133-155 | With an empty queue, the wait stops at the first frame that is not passed over, and that frame decides the result: a websocket error, a decode error or the message. So a success is the first frame that ends the wait. The messages before it are queued in order, and the filter rejects all of them. The stream runs out exactly when no frame ends the wait. |
| Mailbox.EarlyMessageIsBuffered | doppler-ws/src/lib.rs:133-155 | A candidate arriving before the code is queued while the client waits for the code. It is later returned from the queue without reading the stream. |
| Paths.FileName | doppler-ws/src/device.rs:111-114 | A base name, when there is one, is non-empty, has no separator and is neither `.` nor `..`. |
| Paths.Extension | doppler-ws/src/device.rs:90 | An extension, when there is one, has no dot. The name is a non-empty stem, a dot and the extension. |
| Paths.FileNameOfJoin | doppler-ws/src/device.rs:111-114 | The base name of `dir/name` is `name` for every normal name. |
| Paths.FileNameOfBareName | doppler-ws/src/device.rs:111-114 | A bare normal name is its own base name. |
| Paths.NoFileName | doppler-ws/src/device.rs:111-114 | `""`, `/`, `.` and any path ending in `/..` have no base name. |
| Paths.ExtensionOfJoin | doppler-ws/src/device.rs:90 | `stem.ext` has extension `ext` for any non-empty stem, except the name `..`. |
| Paths.NoExtension | doppler-ws/src/device.rs:90-97 | A name with no dot, or a dotfile such as `.name`, has no extension. |
| DeviceApi.NewDeviceClient | doppler-ws/src/device.rs:18-36 | A URL that does not parse is `InvalidUrl`. A parsed URL whose info request fails is `Http`. Otherwise the client holds the fetched info, the URL and the push token. |
| DeviceApi.BadUrlFetchesNothing | doppler-ws/src/device.rs:22-29 | An unparsable URL fails before the info request, so the info reply never affects the result. |
| DeviceApi.MimeSupported | doppler-ws/src/device.rs:68-81 | A MIME type is supported exactly when its essence or its `type/x-subtype` spelling is listed by the device. |
| DeviceApi.ExtensionSupported | doppler-ws/src/device.rs:89-98 | A path is supported exactly when it has an extension that the device lists. |
| DeviceApi.Upload | doppler-ws/src/device.rs:104-135 | Nothing is sent exactly when the path has no base name, and then the result is `InvalidPath`. Otherwise the posted form carries the base name, length and MIME type. The upload succeeds exactly when the device answers with any status, and fails with `Http` otherwise. |
| DeviceApi.UploadIgnoresStatus | doppler-ws/src/device.rs:126-134 | The device's status code never changes an upload's outcome. When the device answers at all, the upload succeeds exactly when the path has a base name. |
| DeviceApi.ServerErrorUploadSucceeds | doppler-ws/src/device.rs:126-134 | A device that answers 500 still counts as having received a named file. |
| DeviceApi.NothingSupportedByEmptyList | doppler-ws/src/device.rs:68-81 | A device listing no MIME type supports none. |
| DeviceApi.XFallback | doppler-ws/src/device.rs:76-80 | When the essence is not listed, support rests entirely on the `x-` spelling. |
| DeviceApi.MimeParamsIgnored | doppler-ws/src/device.rs:69-75 | MIME parameters never affect support. |
| DeviceApi.MimeSupportMonotone | doppler-ws/src/device.rs:68-81 | Listing more types never takes away support. |
| DeviceApi.FlacExample | doppler-ws/src/device.rs:76-80 | A device listing only `audio/x-flac` accepts `audio/flac`. |
| DeviceApi.NoExtensionUnsupported | doppler-ws/src/device.rs:95-97 | A path with no extension is never supported. |
| DeviceApi.ExtensionOfFile | doppler-ws/src/device.rs:89-98 | `dir/stem.ext` is supported exactly when `ext` is listed. |
| DeviceApi.ExtensionCaseSensitive | doppler-ws/src/device.rs:94 | The comparison is exact: `song.MP3` is not supported when only `mp3` is listed. |
| DeviceApi.AccessorsReturnStored | doppler-ws/src/device.rs:39-86 | `supported_mimetypes` (lines 39-41), `push_token` (lines 45-47) and `supported_extensions` (lines 84-86) return the MIME list, the push token and the extension list the client was built from. |
| Transfer.Connect | doppler-ws/src/lib.rs:102-125 | The code is the first Code message on the stream. Every frame before it was passed over: non-text or a message that is not a Code. Those messages stay queued, in order. The only errors are end-of-stream, a websocket error and a decode error. `UnexpectedEof` is returned exactly when every frame is non-text or decodes to a message that is not a Code. |
| Transfer.AwaitCode | doppler-ws/src/lib.rs:87-98 | `get_response!` for Code: it succeeds exactly when the mailbox call does, and that call's message is a Code message carrying the returned code. So the macro's `unreachable!()` arm is never taken. Errors pass through, nothing is sent, and the queue and stream are left as the mailbox call leaves them. |
| Transfer.AwaitDevice | doppler-ws/src/lib.rs:87-98 | The same for a Device message and its candidate. |
| Transfer.AwaitLanUrl | doppler-ws/src/lib.rs:87-98 | The same for a LanUrl message and its URL and push token. |
| Transfer.GetNewDevice | doppler-ws/src/lib.rs:174-176 | The call succeeds exactly when the mailbox yields a Device message, and the candidate is that message. A mailbox error (end-of-stream, websocket or decode) is passed on unchanged. Nothing is sent, the code is kept, and the queue and stream are left as the mailbox call leaves them. |
| Transfer.GetSavedDevice | doppler-ws/src/lib.rs:180-210 | A device with no id fails before anything is sent. After an accepted status, a next candidate with the requested id is Ok with that candidate, and one with any other id is `UnexpectedDevice`. A failed request is `Http`. Details after the table. |
| Transfer.ConfirmDevice | doppler-ws/src/lib.rs:161-171 | The candidate's `is_saved` flag is set before the candidate is echoed. The echo is recorded as sent. On success, the device client's URL and push token come from the next LAN-URL message, that URL parsed, and its info comes from the info fetch. Once a LAN-URL message arrives, the result is exactly what creating the device client from it gives, so an unparsable URL is `InvalidUrl` and a failed info fetch `Http`. A mailbox error passes through. The queue and stream are left as the mailbox call leaves them. |
| Transfer.ConnectAtFirstStop | doppler-ws/src/lib.rs:102-125 | Given the first frame that is not passed over, connecting fails with that frame's error, or succeeds with its code. The messages before it are queued and the stream resumes right after it. |
| Transfer.ServerErrorCountsAsSuccess | doppler-ws/src/lib.rs:196-198 | Status 500 is treated exactly like any success status. |
| Transfer.MissingIdSendsNothing | doppler-ws/src/lib.rs:181-183 | A device with no id sends nothing and leaves the client unchanged. |
| Transfer.RequestCarriesNoIdentity | doppler-ws/src/lib.rs:185-188 | The saved-device request never carries the device's name or id. |
| Transfer.EchoCarriesFlag | doppler-ws/src/lib.rs:166-168 | The echoed candidate, read back, is the candidate with `is_saved` set to the given flag. |
| Transfer.EarlyCandidateServedFromQueue | doppler-ws/src/lib.rs:174-176 | A candidate sent before the code is what `get_new_device` returns. It comes from the queue, and the stream is left where `connect` stopped. |
| Radarsync.LogLevel | radarsync/src/main.rs:48-58 | `-q` turns logging off. Otherwise each `-v` raises the level one step above WARN, up to TRACE. |
| Radarsync.LogLevelMonotone | radarsync/src/main.rs:52-57 | More `-v` flags never give a quieter level. |
| Radarsync.FirstSupported | radarsync/src/main.rs:183-185 | Returns the first guess the device supports. None is returned exactly when no guess is supported. |
| Radarsync.SelectEntries | radarsync/src/main.rs:168-174 | Only files with a supported guess are kept. Every kept file has a supported MIME type. |
| Radarsync.SelectEntriesMembers | radarsync/src/main.rs:168-174 | A walked file is selected exactly when some guess for it is supported. It is selected together with the first such guess. |
| Radarsync.Select | radarsync/src/main.rs:158-192 | Every selected file has a MIME type the device supports. Without `-r` the only possible error is an unsupported file. The full characterisation is in the lemmas below. |
| Radarsync.SelectFiles | radarsync/src/main.rs:194-196 | The result is Ok exactly when the selection succeeds and is non-empty. A selection error is passed on unchanged. "No music files were found" is reported exactly when the selection came out empty. |
| Radarsync.SelectErrorIsAFault | radarsync/src/main.rs:158-192 | Every selection error is the fault of some argument: an unsupported file, or a directory walk that failed under `-r`. |
| Radarsync.FaultIsNotNoMusic | radarsync/src/main.rs:187-195 | No argument's error can be confused with the empty-selection message. |
| Radarsync.SelectWithoutFault | radarsync/src/main.rs:158-192 | When no argument is at fault, the selection is the per-file choice over every offered file, in argument order. |
| Radarsync.SelectAtFirstFault | radarsync/src/main.rs:158-192 | The first faulty argument ends the selection with its error, whatever follows it. |
| Radarsync.WalkErrorPassedOn | radarsync/src/main.rs:92-108 | A failed walk under `-r` ends the selection with the walk's own error. A failed directory listing is a bare I/O error. A failed entry read is an I/O error with the context "while recursing" and the directory being read. |
| Radarsync.DirectoryWithoutRecurse | radarsync/src/main.rs:160-181 | Without `-r`, a directory adds nothing and cannot fail. |
| Radarsync.DeviceToSave | radarsync/src/main.rs:147-155 | The push token is saved exactly when the device reports one and it is not already saved. |
| Radarsync.LookupErrorStillSaves | radarsync/src/main.rs:139 | A failed library lookup counts as "not saved", so a device that asks to be saved is saved. |
| Radarsync.ProcessFile | radarsync/src/main.rs:77-89 | An open failure is an I/O error. A path with no base name is `InvalidPath`. Otherwise the file succeeds exactly when the device answers the posted form with any status. A failed exchange is the library's `Http` error. |
| Radarsync.UploadAll | radarsync/src/main.rs:200-204 | Succeeds exactly when every file does. Otherwise it stops at the first failing file and reports that file's error wrapped in its path, and nothing after it is attempted. |
| Radarsync.Pair | radarsync/src/main.rs:116-136 | Without `--device` the next candidate is awaited. With it, an unknown name or a library error ends the run, and a known device's result is exactly the saved-device request's result for that device. |
| Radarsync.UploadSelection | radarsync/src/main.rs:200-204 | The loop with `Radarsync.ProcessFile` as its step. The attempted files are a prefix of the selection. The result is Ok exactly when every file uploads. Otherwise the last attempted file is the first failure, and the error is its own in the context of its path. |
| Radarsync.PairingStage | radarsync/src/main.rs:111-136 | A connection error gets the context "Error accessing Doppler API". A library error, an unknown device name and a library lookup error escape with no context. An error from the pairing client gets "Failed to pair". Otherwise the run continues with the client and candidate that pairing left. |
| Radarsync.NamedPairingYieldsNamedDevice | radarsync/src/main.rs:116-121 | Pairing with `--device` only ever yields the named saved device: the candidate's id is that device's id. |
| Radarsync.CodePairingYieldsFirstCandidate | radarsync/src/main.rs:122-134 | Pairing by code yields the first candidate the server sends after the code. |
| Radarsync.SaveAndUpload | radarsync/src/main.rs:146-204 | The device to add is the push token exactly when there is one and the device is not saved. A failed add ends the run with "Couldn't save device to database". A selection error passes through with nothing uploaded. Otherwise the upload report holds for the selection. |
| Radarsync.AppMain | radarsync/src/main.rs:110-207 | `is_saved` is the library lookup of the candidate's id. The device client exists exactly when pairing and confirmation succeed, and a failed confirmation is "Couldn't get device URL". A device is added exactly when it reports a push token and was not already saved. Once saving is past, success means the selection is non-empty and every selected file uploaded, and a failure names the first failing file. Details after the table. |

**`Transfer.GetSavedDevice`**
- A device with no id fails with `DeviceIdMissing`, and nothing is sent.
- Otherwise the request is recorded as sent, carrying the code and the device's token form.
- A status other than success or 500 is `BadResponse` with that status, and the mailbox is not touched.
- An Ok result has the requested id and is the next candidate from the mailbox.
- When a candidate arrives, the result is Ok exactly when the candidate's id matches. A mismatch is `UnexpectedDevice`.

**`Radarsync.UploadAll`**
- The files are processed one at a time, in selection order. The loop is written over the per-file step, and a run uses `Radarsync.ProcessFile` for it.
- The result is Ok exactly when every file succeeds.
- On failure, the attempted files are a prefix of the selection, and every attempted file except the last succeeded.
- The error is the last file's own error, wrapped in that file's path.

**`Radarsync.Pair`**
- Without `--device`, the next candidate is awaited.
- With `--device`, a name the library does not know is "Device name not found", and a library error is passed on unchanged.
- A known name's result is exactly what the saved-device request gives for the stored device.

**`Radarsync.AppMain`**
- A pairing-stage error is the run's result, and nothing is paired or uploaded.
- After pairing, `isSaved` is whether the library lookup of the candidate's reported id found a device. A failed lookup counts as not saved.
- The device client exists exactly when confirming the candidate with that flag succeeds. Otherwise the run fails with "Couldn't get device URL".
- A device is added to the library exactly when the client has a push token and the device was not already saved. A failed add ends the run.
- Otherwise a selection error is the run's result. A successful selection is uploaded file by file as `Radarsync.UploadSelection` describes.
- Success means a non-empty selection was chosen and every file in it uploaded.

## Left out

- **Network transport.**
  - Opening the websocket, the random connection id and the API URL (`doppler-ws/src/lib.rs:105-112`) are not modelled. The server's frames are an input.
  - The HTTP requests of `DeviceClient::new`, `get_saved_device` and `upload` are not modelled. Their outcomes are inputs.
- DeviceApi.NewDeviceClient: a URL that parses but cannot be a base URL, such as `mailto:x`, panics at `join("info").unwrap()` (`doppler-ws/src/device.rs:25`). The model treats it like any other parsed URL, because a panic is not a result the caller can observe.
- **URL normalisation.** `Url::parse` is an input predicate. The client keeps the URL string it was given, not the normalised `Url`.
- **Failed websocket sends.** The model takes every send to succeed, so `Transfer.ConfirmDevice` never fails while echoing the candidate. Modelling a failed send would add an input and nothing about the mailbox.
- **Serialisation failures.** `serde_json::to_string` of the candidate cannot fail for these types, so it is not modelled.
- **JSON text syntax.**
  - Objects are maps, so duplicate keys cannot be expressed.
  - serde's acceptance of a struct written as a JSON array is not modelled.
  - Numbers are integers, since no modelled field is a number except the app version.
- **Output and command-line parsing.** The QR code for the pairing code, and its rare failure to encode, are not modelled. Neither are printing, `tracing` output, the process exit code or `clap` argument parsing. `Args` arrives parsed.
- **`radarsync/src/db.rs` and `radarsync/src/progress.rs`.** The library database is represented only by its answers. Progress display is not part of this model.
- **File system and MIME guessing.**
  - `get_dir_paths`, `is_dir` and `mime_guess` are not modelled. Their results are inputs. A walk failure is either a failed directory listing or a failed entry read in a named directory.
  - The failure of the blocking task that runs the walk (a panic, which gets the context "while recursing" and the argument's path) is not modelled, because a panic is not an outcome of the walk itself.
- **`Paths`.**
  - Only Unix-style UTF-8 paths are modelled. Windows prefixes and non-UTF-8 names are not.
  - A `..` inside a path is not resolved, which matches `Path`.
- **Asynchrony.** All of it is sequential here, and the source awaits each step in turn.

=== FILE: device.dfy ===
/**
 * The client of a paired device (`doppler-ws/src/device.rs`): its
 * construction, its capability metadata, the MIME and extension checks
 * made against it, and the upload.
 */
module DeviceApi {
  import opened Results
  import opened Errors
  import opened Model
  import opened Paths

  /** An unsigned 64-bit length (`u64`). */
  type U64 = x: int | 0 <= x < 0x1_0000_0000_0000_0000

  /**
   * A parsed MIME type as the `mime` crate holds it: top-level type,
   * subtype, optional `+suffix` and parameters.
   */
  datatype Mime = Mime(top: string, sub: string, suffix: Option<string>, params: seq<(string, string)>)

  /** `Mime::essence_str`: `type/subtype[+suffix]`, without parameters. */
  function Essence(m: Mime): string
  {
    m.top + "/" + m.sub + (match m.suffix case None => "" case Some(s) => "+" + s)
  }

  /** The fallback spelling `type/x-subtype` (built from the subtype without its suffix). */
  function XPrefixed(m: Mime): string
  {
    m.top + "/x-" + m.sub
  }

  datatype DeviceClient = DeviceClient(info: DeviceInfo, baseUri: string, pushToken: Option<Device>)

  /**
   * `DeviceClient::new`: the URL is parsed first (`parses` says which
   * strings `Url::parse` accepts), and only then is `GET {uri}/info` sent;
   * `info` is what that exchange produced, `None` when the request or the
   * decoding of its JSON body failed (both `reqwest` errors).
   */
  function NewDeviceClient(uri: string, pushToken: Option<Device>, parses: string -> bool, info: Option<DeviceInfo>): (r: Result<DeviceClient, ApiError>)
    ensures r.Err? ==> r.error in {InvalidUrl, Http}
    ensures r == Err(InvalidUrl) <==> !parses(uri)
    ensures r.Ok? <==> parses(uri) && info.Some?
    ensures r.Ok? ==> r.value.info == info.value && r.value.baseUri == uri && r.value.pushToken == pushToken
  {
    if !parses(uri) then Err(InvalidUrl)
    else
      match info
      case None => Err(Http)
      case Some(i) => Ok(DeviceClient(i, uri, pushToken))
  }

  function SupportedMimetypes(c: DeviceClient): seq<string>
  {
    c.info.supportedMimetypes
  }

  function SupportedExtensions(c: DeviceClient): seq<string>
  {
    c.info.knownFileExtensions
  }

  function PushToken(c: DeviceClient): Option<Device>
  {
    c.pushToken
  }

  /** `Iterator::any` with string equality: a linear scan. */
  function Contains(list: seq<string>, s: string): (r: bool)
    ensures r <==> s in list
  {
    if |list| == 0 then false
    else if list[0] == s then true
    else Contains(list[1..], s)
  }

  /** `mime_supported`: the essence is listed, or else its `x-` spelling is. */
  function MimeSupported(c: DeviceClient, m: Mime): (r: bool)
    ensures r <==> Essence(m) in SupportedMimetypes(c) || XPrefixed(m) in SupportedMimetypes(c)
  {
    if Contains(c.info.supportedMimetypes, Essence(m)) then true
    else Contains(c.info.supportedMimetypes, XPrefixed(m))
  }

  /** `extension_supported`: the path's extension equals some known extension, character for character. */
  function ExtensionSupported(c: DeviceClient, path: string): (r: bool)
    ensures r <==> PathExtension(path).Some? && PathExtension(path).value in SupportedExtensions(c)
  {
    match PathExtension(path)
    case Some(ext) => Contains(c.info.knownFileExtensions, ext)
    case None => false
  }

  /** The multipart body of an upload: the file's base name, its length and its MIME type. */
  datatype UploadForm = UploadForm(fileName: string, len: U64, mime: Mime)

  /** What an upload sent (if anything) and what it returned. */
  datatype UploadAttempt = UploadAttempt(sent: Option<UploadForm>, result: Result<(), ApiError>)

  /**
   * `upload`: the base name is taken first, and a path without one fails
   * with `InvalidPath` before any request is built; otherwise the form is
   * posted (`post` stands for the HTTP exchange) and its body read. The
   * response status is never examined: any status is a success, and only
   * a failed exchange is an error.
   */
  function Upload(path: string, len: U64, mime: Mime, post: UploadForm -> HttpReply): (r: UploadAttempt)
    ensures r.sent.None? <==> FileName(path).None?
    ensures r.sent.None? ==> r.result == Err(InvalidPath)
    ensures r.sent.Some? ==>
      && r.sent.value == UploadForm(FileName(path).value, len, mime)
      && (r.result.Ok? <==> post(r.sent.value).Status?)
      && (r.result.Err? ==> r.result.error == Http)
  {
    match FileName(path)
    case None => UploadAttempt(None, Err(InvalidPath))
    case Some(basename) =>
      var form := UploadForm(basename, len, mime);
      UploadAttempt(Some(form), if post(form).Status? then Ok(()) else Err(Http))
  }

  // ------ Properties ------

  /** A device that lists no MIME type supports none. */
  lemma NothingSupportedByEmptyList(c: DeviceClient, m: Mime)
    requires SupportedMimetypes(c) == []
    ensures !MimeSupported(c, m)
  {
  }

  /** The `x-` spelling is consulted only when the essence itself is not listed. */
  lemma XFallback(c: DeviceClient, m: Mime)
    requires Essence(m) !in SupportedMimetypes(c)
    ensures MimeSupported(c, m) <==> XPrefixed(m) in SupportedMimetypes(c)
  {
  }

  /** MIME parameters play no part in the check. */
  lemma MimeParamsIgnored(c: DeviceClient, m: Mime, params: seq<(string, string)>)
    ensures MimeSupported(c, m.(params := params)) == MimeSupported(c, m)
  {
  }

  /** Listing more MIME types never withdraws support. */
  lemma MimeSupportMonotone(c: DeviceClient, more: seq<string>, m: Mime)
    requires MimeSupported(c, m)
    ensures MimeSupported(c.(info := c.info.(supportedMimetypes := SupportedMimetypes(c) + more)), m)
  {
  }

  /** `audio/flac` is accepted by a device that only lists `audio/x-flac`. */
  lemma FlacExample(c: DeviceClient)
    requires SupportedMimetypes(c) == ["audio/x-flac"]
    ensures MimeSupported(c, Mime("audio", "flac", None, []))
  {
    assert XPrefixed(Mime("audio", "flac", None, [])) == "audio/x-flac";
  }

  /** A path without an extension is never supported, whatever the device lists. */
  lemma NoExtensionUnsupported(c: DeviceClient, path: string)
    requires PathExtension(path).None?
    ensures !ExtensionSupported(c, path)
  {
  }

  /**
   * A file `dir/stem.ext` is supported exactly when `ext` is listed: the
   * comparison is exact, so case differences count.
   */
  lemma ExtensionOfFile(c: DeviceClient, dir: string, stem: string, ext: string)
    requires NormalName(stem + "." + ext) && stem != "" && '.' !in ext
    ensures ExtensionSupported(c, dir + "/" + (stem + "." + ext)) <==> ext in SupportedExtensions(c)
  {
    var name := stem + "." + ext;
    FileNameOfJoin(dir, name);
    ExtensionOfJoin(stem, ext);
    assert PathExtension(dir + "/" + name) == Some(ext);
  }

  /** With `mp3` listed, `song.MP3` is still unsupported. */
  lemma ExtensionCaseSensitive(c: DeviceClient)
    requires SupportedExtensions(c) == ["mp3"]
    ensures !ExtensionSupported(c, "music/song.MP3")
  {
    var name := "song" + "." + "MP3";
    assert NormalName(name) by {
      assert name == ['s', 'o', 'n', 'g', '.', 'M', 'P', '3'];
    }
    ExtensionOfFile(c, "music", "song", "MP3");
    assert "music/song.MP3" == "music" + "/" + name;
    assert "MP3" != "mp3";
  }

  /** The accessors hand back what the client was built from. */
  lemma AccessorsReturnStored(uri: string, token: Option<Device>, parses: string -> bool, info: DeviceInfo)
    requires parses(uri)
    ensures NewDeviceClient(uri, token, parses, Some(info)).Ok?
    ensures var c := NewDeviceClient(uri, token, parses, Some(info)).value;
      && SupportedMimetypes(c) == info.supportedMimetypes
      && SupportedExtensions(c) == info.knownFileExtensions
      && PushToken(c) == token
  {
  }

  /** A URL that does not parse fails before the device is asked anything: the info reply plays no part. */
  lemma BadUrlFetchesNothing(uri: string, token: Option<Device>, parses: string -> bool, info1: Option<DeviceInfo>, info2: Option<DeviceInfo>)
    requires !parses(uri)
    ensures NewDeviceClient(uri, token, parses, info1) == NewDeviceClient(uri, token, parses, info2) == Err(InvalidUrl)
  {
  }

  /** The device's status code never decides an upload: two exchanges that both get a response give the same attempt. */
  lemma UploadIgnoresStatus(path: string, len: U64, mime: Mime, post1: UploadForm -> HttpReply, post2: UploadForm -> HttpReply)
    requires forall form :: post1(form).Status? && post2(form).Status?
    ensures Upload(path, len, mime, post1) == Upload(path, len, mime, post2)
    ensures Upload(path, len, mime, post1).result.Ok? <==> FileName(path).Some?
  {
  }

  /** A device answering 500 to every upload still counts as a successful upload of a named file. */
  lemma ServerErrorUploadSucceeds(name: string, len: U64, mime: Mime)
    requires NormalName(name)
    ensures Upload(name, len, mime, _ => Status(500)).result == Ok(())
  {
    FileNameOfBareName(name);
  }
}

=== FILE: errors.dfy ===
/**
 * The error enum of the `doppler-ws` crate (`ApiError`). The Rust variants wrap
 * foreign error values (serde_json, tokio-websockets, reqwest, url); those
 * payloads carry no behaviour here, so the variants keep only their names,
 * except `Io`, whose kind the mailbox decides, and `BadResponse`, whose status
 * code the saved-device flow decides.
 */
module Errors {

  /** An HTTP status code as `http::StatusCode` admits it: three digits. */
  type StatusCode = c: int | 100 <= c <= 999 witness 200

  /** `StatusCode::is_success`: the 2xx range. */
  predicate IsSuccess(c: StatusCode) {
    200 <= c <= 299
  }

  /**
   * The outcome of an HTTP exchange: the response status, or a request that
   * failed outright (connecting, sending, or reading the response body).
   */
  datatype HttpReply = Status(code: StatusCode) | SendFailed

  /** The `std::io::ErrorKind` values the core produces: only the end of the stream. */
  datatype IoKind = UnexpectedEof

  datatype ApiError =
    | Io(kind: IoKind)
    | Serde
    | Websocket
    | MalformedResponse
    | BadResponse(status: StatusCode)
    | Http
    | UnexpectedDevice
    | DeviceIdMissing
    | InvalidUrl
    | InvalidPath
}

=== FILE: mailbox.dfy ===
/**
 * The message mailbox of `TransferClient` (`next_msg` in `doppler-ws/src/lib.rs`).
 *
 * The client keeps a queue of messages already received but not yet wanted.
 * A call with a filter first takes the earliest queued message the filter
 * accepts; failing that it reads the websocket, skipping non-text frames,
 * decoding text frames, returning the first decoded message the filter
 * accepts and queueing every other one. The websocket is modelled as the
 * finite sequence of items its stream will yield; its end is the end of the
 * stream.
 */
module Mailbox {
  import opened Results
  import opened Errors
  import opened Model

  /**
   * One item the websocket stream yields: a text frame (whose body is JSON, or
   * `None` when it is not well-formed JSON), any other frame (binary, ping,
   * pong, close), or a transport error.
   */
  datatype Frame = Text(body: Option<Json>) | NonText | Broken

  /** What a `next_msg` call produces and leaves behind: its result, the new queue, the unread stream. */
  datatype Step = Step(result: Result<ApiResponse, ApiError>, queue: seq<ApiResponse>, wire: seq<Frame>)

  /** The message a frame carries, if it is a text frame that decodes. */
  function Payload(fr: Frame, decode: Json -> Option<ApiResponse>): Option<ApiResponse>
  {
    if fr.Text? && fr.body.Some? then decode(fr.body.value) else None
  }

  /** The messages carried by a run of frames, in arrival order. */
  function Payloads(frames: seq<Frame>, decode: Json -> Option<ApiResponse>): seq<ApiResponse>
  {
    if |frames| == 0 then []
    else
      PayloadSeq(frames[0], decode) + Payloads(frames[1..], decode)
  }

  /** A frame the read loop passes over: a non-text frame, or a message the filter rejects. */
  predicate Skippable(fr: Frame, decode: Json -> Option<ApiResponse>, f: ApiResponse -> bool)
  {
    fr.NonText? || (Payload(fr, decode).Some? && !f(Payload(fr, decode).value))
  }

  /**
   * How the read loop ends on a frame it cannot pass over: a transport error,
   * or a text frame that is either accepted or not a message. (A non-text
   * frame is always passed over, so only `Broken` reaches the first branch.)
   */
  function StopResult(fr: Frame, decode: Json -> Option<ApiResponse>): Result<ApiResponse, ApiError>
  {
    if !fr.Text? then Err(Websocket)
    else
      match Payload(fr, decode)
      case Some(m) => Ok(m)
      case None => Err(Serde)
  }

  /** The end-of-stream error. */
  const Eof: ApiError := Io(UnexpectedEof)

  /** The index of the earliest element the filter accepts (`Iterator::position`). */
  function Position(q: seq<ApiResponse>, f: ApiResponse -> bool): (r: Option<nat>)
    ensures r.Some? ==> r.value < |q| && f(q[r.value]) && forall j :: 0 <= j < r.value ==> !f(q[j])
    ensures r.None? ==> forall j :: 0 <= j < |q| ==> !f(q[j])
  {
    if |q| == 0 then None
    else if f(q[0]) then Some(0)
    else
      match Position(q[1..], f)
      case None => None
      case Some(i) => Some(i + 1)
  }

  /** `Vec::remove`: the element at `i` taken out, the others kept in order. */
  function RemoveAt(q: seq<ApiResponse>, i: nat): (r: seq<ApiResponse>)
    requires i < |q|
    ensures |r| == |q| - 1
    ensures forall j :: 0 <= j < i ==> r[j] == q[j]
    ensures forall j :: i <= j < |r| ==> r[j] == q[j + 1]
    ensures multiset(r) + multiset{q[i]} == multiset(q)
  {
    assert q == q[..i] + [q[i]] + q[i + 1..];
    q[..i] + q[i + 1..]
  }

  /** The `while let` loop of `next_msg`: read until a frame ends it or the stream does. */
  function ReadWire(queue: seq<ApiResponse>, wire: seq<Frame>, decode: Json -> Option<ApiResponse>, f: ApiResponse -> bool): (s: Step)
    decreases |wire|
    ensures |s.wire| <= |wire|
    ensures s.result.Ok? ==> f(s.result.value)
    ensures s.result.Err? ==> s.result.error in {Eof, Websocket, Serde}
  {
    if |wire| == 0 then Step(Err(Eof), queue, [])
    else
      match wire[0]
      case Broken => Step(Err(Websocket), queue, wire[1..])
      case NonText => ReadWire(queue, wire[1..], decode, f)
      case Text(_) =>
        match Payload(wire[0], decode)
        case None => Step(Err(Serde), queue, wire[1..])
        case Some(m) =>
          if f(m) then Step(Ok(m), queue, wire[1..])
          else ReadWire(queue + [m], wire[1..], decode, f)
  }

  /**
   * `next_msg`: the earliest queued match if there is one, without touching
   * the stream; otherwise the read loop.
   */
  function NextMsg(queue: seq<ApiResponse>, wire: seq<Frame>, decode: Json -> Option<ApiResponse>, f: ApiResponse -> bool): (s: Step)
    ensures s.result.Ok? ==> f(s.result.value)
    ensures s.result.Err? ==> s.result.error in {Eof, Websocket, Serde}
    ensures (exists j :: 0 <= j < |queue| && f(queue[j])) ==>
      s.wire == wire &&
      exists i :: 0 <= i < |queue| && f(queue[i]) && (forall j :: 0 <= j < i ==> !f(queue[j]))
        && s.result == Ok(queue[i]) && s.queue == queue[..i] + queue[i + 1..]
    ensures (forall j :: 0 <= j < |queue| ==> !f(queue[j])) ==> s == ReadWire(queue, wire, decode, f)
  {
    match Position(queue, f)
    case Some(i) => Step(Ok(queue[i]), RemoveAt(queue, i), wire)
    case None => ReadWire(queue, wire, decode, f)
  }

  // ------ Properties of the read loop ------

  lemma QueueAppendAssoc(a: seq<ApiResponse>, b: seq<ApiResponse>, c: seq<ApiResponse>)
    ensures a + b + c == a + (b + c)
  {
  }

  lemma {:induction false} PayloadsAppend(a: seq<Frame>, b: seq<Frame>, decode: Json -> Option<ApiResponse>)
    ensures Payloads(a + b, decode) == Payloads(a, decode) + Payloads(b, decode)
    decreases |a|
  {
    if |a| == 0 {
      assert a + b == b;
    } else {
      assert (a + b)[0] == a[0];
      assert (a + b)[1..] == a[1..] + b;
      PayloadsAppend(a[1..], b, decode);
    }
  }

  /** The messages one frame carries: none, or the one it decodes to. */
  function PayloadSeq(fr: Frame, decode: Json -> Option<ApiResponse>): seq<ApiResponse>
  {
    match Payload(fr, decode) case Some(m) => [m] case None => []
  }

  /** The read loop only consumes: what it leaves is a suffix of the stream. */
  lemma {:induction false} ReadWireLeavesSuffix(queue: seq<ApiResponse>, wire: seq<Frame>, decode: Json -> Option<ApiResponse>, f: ApiResponse -> bool)
    ensures var s := ReadWire(queue, wire, decode, f);
      s.wire == wire[|wire| - |s.wire|..]
    decreases |wire|
  {
    if |wire| > 0 && Skippable(wire[0], decode, f) {
      ReadWireSkip(queue, wire, decode, f);
      ReadWireLeavesSuffix(queue + PayloadSeq(wire[0], decode), wire[1..], decode, f);
    } else if |wire| > 0 {
      ReadWireStop(queue, wire, decode, f);
    }
  }

  /** Passing over a frame is queueing what it carries and reading on. */
  lemma ReadWireSkip(queue: seq<ApiResponse>, wire: seq<Frame>, decode: Json -> Option<ApiResponse>, f: ApiResponse -> bool)
    requires 0 < |wire| && Skippable(wire[0], decode, f)
    ensures ReadWire(queue, wire, decode, f) == ReadWire(queue + PayloadSeq(wire[0], decode), wire[1..], decode, f)
  {
    if wire[0].NonText? {
      assert queue + PayloadSeq(wire[0], decode) == queue;
    }
  }

  /** A frame that cannot be passed over ends the read loop and decides its result. */
  lemma ReadWireStop(queue: seq<ApiResponse>, wire: seq<Frame>, decode: Json -> Option<ApiResponse>, f: ApiResponse -> bool)
    requires 0 < |wire| && !Skippable(wire[0], decode, f)
    ensures ReadWire(queue, wire, decode, f) == Step(StopResult(wire[0], decode), queue, wire[1..])
  {
  }

  /** A non-text frame is neither returned nor queued: the loop reads on as if it were not there. */
  lemma NonTextIgnored(queue: seq<ApiResponse>, rest: seq<Frame>, decode: Json -> Option<ApiResponse>, f: ApiResponse -> bool)
    ensures ReadWire(queue, [NonText] + rest, decode, f) == ReadWire(queue, rest, decode, f)
  {
    assert ([NonText] + rest)[1..] == rest;
  }

  /** The stream runs out exactly when every frame on it can be passed over. */
  lemma {:induction false} ReadWireEofIffAllSkippable(queue: seq<ApiResponse>, wire: seq<Frame>, decode: Json -> Option<ApiResponse>, f: ApiResponse -> bool)
    ensures ReadWire(queue, wire, decode, f).result == Err(Eof) <==> forall i :: 0 <= i < |wire| ==> Skippable(wire[i], decode, f)
    decreases |wire|
  {
    if |wire| > 0 {
      if Skippable(wire[0], decode, f) {
        ReadWireSkip(queue, wire, decode, f);
        ReadWireEofIffAllSkippable(queue + PayloadSeq(wire[0], decode), wire[1..], decode, f);
        assert forall i :: 1 <= i < |wire| ==> wire[i] == wire[1..][i - 1];
      }
    }
  }

  /** Running out of stream drains it and queues every message it carried, in arrival order. */
  lemma {:induction false} ReadWireEofQueuesAll(queue: seq<ApiResponse>, wire: seq<Frame>, decode: Json -> Option<ApiResponse>, f: ApiResponse -> bool)
    requires ReadWire(queue, wire, decode, f).result == Err(Eof)
    ensures ReadWire(queue, wire, decode, f).wire == []
    ensures ReadWire(queue, wire, decode, f).queue == queue + Payloads(wire, decode)
    decreases |wire|
  {
    if |wire| > 0 {
      if !Skippable(wire[0], decode, f) {
        ReadWireStop(queue, wire, decode, f);
        assert false;
      }
      ReadWireSkip(queue, wire, decode, f);
      var head := PayloadSeq(wire[0], decode);
      ReadWireEofQueuesAll(queue + head, wire[1..], decode, f);
      assert Payloads(wire, decode) == head + Payloads(wire[1..], decode);
      QueueAppendAssoc(queue, head, Payloads(wire[1..], decode));
    }
  }

  /** The frame the read loop stops on, when the stream does not run out, decides the result. */
  lemma {:induction false} ReadWireStopFrame(queue: seq<ApiResponse>, wire: seq<Frame>, decode: Json -> Option<ApiResponse>, f: ApiResponse -> bool)
    requires ReadWire(queue, wire, decode, f).result != Err(Eof)
    ensures var s := ReadWire(queue, wire, decode, f);
      var n := |wire| - |s.wire|;
      && 0 < n
      && !Skippable(wire[n - 1], decode, f)
      && s.result == StopResult(wire[n - 1], decode)
    decreases |wire|
  {
    if Skippable(wire[0], decode, f) {
      var rest := wire[1..];
      var queue' := queue + PayloadSeq(wire[0], decode);
      ReadWireSkip(queue, wire, decode, f);
      ReadWireStopFrame(queue', rest, decode, f);
      var s := ReadWire(queue', rest, decode, f);
      assert s == ReadWire(queue, wire, decode, f);
      var m := |rest| - |s.wire|;
      assert |wire| - |s.wire| == m + 1;
      assert wire[m] == rest[m - 1];
    } else {
      ReadWireStop(queue, wire, decode, f);
      assert |wire| - |ReadWire(queue, wire, decode, f).wire| == 1;
    }
  }

  /** Every frame before the one the read loop stops on was passed over. */
  lemma {:induction false} ReadWireSkippedBeforeStop(queue: seq<ApiResponse>, wire: seq<Frame>, decode: Json -> Option<ApiResponse>, f: ApiResponse -> bool)
    requires ReadWire(queue, wire, decode, f).result != Err(Eof)
    ensures var n := |wire| - |ReadWire(queue, wire, decode, f).wire|;
      forall i :: 0 <= i < n - 1 ==> Skippable(wire[i], decode, f)
    decreases |wire|
  {
    if Skippable(wire[0], decode, f) {
      var rest := wire[1..];
      var queue' := queue + PayloadSeq(wire[0], decode);
      ReadWireSkip(queue, wire, decode, f);
      ReadWireSkippedBeforeStop(queue', rest, decode, f);
      var s := ReadWire(queue', rest, decode, f);
      assert s == ReadWire(queue, wire, decode, f);
      var m := |rest| - |s.wire|;
      assert |wire| - |s.wire| == m + 1;
      forall i | 0 <= i < m
        ensures Skippable(wire[i], decode, f)
      {
        if i > 0 {
          assert wire[i] == rest[i - 1];
        }
      }
    } else {
      ReadWireStop(queue, wire, decode, f);
      assert |wire| - |ReadWire(queue, wire, decode, f).wire| == 1;
    }
  }

  /** The queue the read loop leaves when it stops: the old one plus the messages before the stopping frame. */
  lemma {:induction false} ReadWireStopQueue(queue: seq<ApiResponse>, wire: seq<Frame>, decode: Json -> Option<ApiResponse>, f: ApiResponse -> bool)
    requires ReadWire(queue, wire, decode, f).result != Err(Eof)
    ensures var s := ReadWire(queue, wire, decode, f);
      var n := |wire| - |s.wire|;
      0 < n && s.queue == queue + Payloads(wire[..n - 1], decode)
    decreases |wire|
  {
    if Skippable(wire[0], decode, f) {
      var rest := wire[1..];
      var head := PayloadSeq(wire[0], decode);
      ReadWireSkip(queue, wire, decode, f);
      ReadWireStopQueue(queue + head, rest, decode, f);
      var s := ReadWire(queue + head, rest, decode, f);
      assert s == ReadWire(queue, wire, decode, f);
      var m := |rest| - |s.wire|;
      assert |wire| - |s.wire| == m + 1;
      var tail := Payloads(rest[..m - 1], decode);
      assert wire[..m][1..] == rest[..m - 1];
      assert Payloads(wire[..m], decode) == head + tail;
      assert s.queue == queue + head + tail;
      QueueAppendAssoc(queue, head, tail);
    } else {
      ReadWireStop(queue, wire, decode, f);
      assert wire[..0] == [];
    }
  }

  /**
   * Otherwise the read loop stops at the first frame it cannot pass over:
   * every earlier frame is a non-text frame or a rejected message and is
   * queued in arrival order, and the stopping frame decides the result.
   */
  lemma ReadWireStopsAtFirstUnskippable(queue: seq<ApiResponse>, wire: seq<Frame>, decode: Json -> Option<ApiResponse>, f: ApiResponse -> bool)
    requires ReadWire(queue, wire, decode, f).result != Err(Eof)
    ensures var s := ReadWire(queue, wire, decode, f);
      var n := |wire| - |s.wire|;
      && 0 < n
      && (forall i :: 0 <= i < n - 1 ==> Skippable(wire[i], decode, f))
      && !Skippable(wire[n - 1], decode, f)
      && s.result == StopResult(wire[n - 1], decode)
      && s.queue == queue + Payloads(wire[..n - 1], decode)
  {
    ReadWireStopFrame(queue, wire, decode, f);
    ReadWireSkippedBeforeStop(queue, wire, decode, f);
    ReadWireStopQueue(queue, wire, decode, f);
  }

  /**
   * Nothing read is lost: the queue left behind plus the returned message are
   * exactly the old queue followed by the messages of the frames read, in
   * arrival order. Non-text frames contribute nothing to either.
   */
  lemma ReadWireLosesNothing(queue: seq<ApiResponse>, wire: seq<Frame>, decode: Json -> Option<ApiResponse>, f: ApiResponse -> bool)
    ensures var s := ReadWire(queue, wire, decode, f);
      var read := wire[..|wire| - |s.wire|];
      s.queue + (if s.result.Ok? then [s.result.value] else []) == queue + Payloads(read, decode)
  {
    if ReadWire(queue, wire, decode, f).result == Err(Eof) {
      ReadWireEofQueuesAll(queue, wire, decode, f);
      assert wire[..|wire|] == wire;
    } else {
      StoppedLosesNothing(queue, wire, decode, f);
    }
  }

  lemma StoppedLosesNothing(queue: seq<ApiResponse>, wire: seq<Frame>, decode: Json -> Option<ApiResponse>, f: ApiResponse -> bool)
    requires ReadWire(queue, wire, decode, f).result != Err(Eof)
    ensures var s := ReadWire(queue, wire, decode, f);
      var read := wire[..|wire| - |s.wire|];
      s.queue + (if s.result.Ok? then [s.result.value] else []) == queue + Payloads(read, decode)
  {
    var s := ReadWire(queue, wire, decode, f);
    var n := |wire| - |s.wire|;
    ReadWireStopFrame(queue, wire, decode, f);
    ReadWireStopQueue(queue, wire, decode, f);
    var last := wire[n - 1];
    var before := wire[..n - 1];
    var pb := Payloads(before, decode);
    var pl := PayloadSeq(last, decode);
    assert wire[..n] == before + [last];
    PayloadsAppend(before, [last], decode);
    assert Payloads([last], decode) == pl by {
      assert [last][1..] == [];
    }
    assert Payloads(wire[..n], decode) == pb + pl;
    assert s.queue == queue + pb;
    assert pl == if s.result.Ok? then [s.result.value] else [];
    QueueAppendAssoc(queue, pb, pl);
  }

  /** Every message the read loop queues is one the filter rejects; the old queue is kept as a prefix. */
  lemma ReadWireQueuesOnlyRejected(queue: seq<ApiResponse>, wire: seq<Frame>, decode: Json -> Option<ApiResponse>, f: ApiResponse -> bool)
    ensures var s := ReadWire(queue, wire, decode, f);
      && |queue| <= |s.queue| && s.queue[..|queue|] == queue
      && forall k :: |queue| <= k < |s.queue| ==> !f(s.queue[k])
  {
    var s := ReadWire(queue, wire, decode, f);
    var n := |wire| - |s.wire|;
    var read := if s.result == Err(Eof) then wire else wire[..n - 1];
    ReadWireEofIffAllSkippable(queue, wire, decode, f);
    if s.result == Err(Eof) {
      ReadWireEofQueuesAll(queue, wire, decode, f);
    } else {
      ReadWireStopsAtFirstUnskippable(queue, wire, decode, f);
    }
    assert forall i :: 0 <= i < |read| ==> Skippable(read[i], decode, f);
    assert s.queue == queue + Payloads(read, decode);
    PayloadsOfSkippedAreRejected(read, decode, f);
  }

  lemma {:induction false} PayloadsOfSkippedAreRejected(frames: seq<Frame>, decode: Json -> Option<ApiResponse>, f: ApiResponse -> bool)
    requires forall i :: 0 <= i < |frames| ==> Skippable(frames[i], decode, f)
    ensures forall k :: 0 <= k < |Payloads(frames, decode)| ==> !f(Payloads(frames, decode)[k])
    decreases |frames|
  {
    if |frames| > 0 {
      PayloadsOfSkippedAreRejected(frames[1..], decode, f);
    }
  }

  /**
   * A wait with an empty queue: unless the stream runs out, the wait ends
   * at the first frame it cannot pass over, which decides the result, with
   * the messages before it queued in order; a success is that frame's
   * message, and no queued message is accepted. The stream runs out exactly
   * when no frame ends the wait.
   */
  lemma AwaitOnEmptyQueue(wire: seq<Frame>, decode: Json -> Option<ApiResponse>, f: ApiResponse -> bool)
    ensures var s := NextMsg([], wire, decode, f);
      var n := |wire| - |s.wire|;
      && (s.result != Err(Eof) ==>
        && 0 < n && s.wire == wire[n..]
        && (forall i :: 0 <= i < n - 1 ==> Skippable(wire[i], decode, f))
        && !Skippable(wire[n - 1], decode, f)
        && s.result == StopResult(wire[n - 1], decode)
        && s.queue == Payloads(wire[..n - 1], decode))
      && (s.result.Ok? ==>
        && 0 < n && s.wire == wire[n..]
        && Payload(wire[n - 1], decode) == Some(s.result.value)
        && s.queue == Payloads(wire[..n - 1], decode)
        && forall k :: 0 <= k < |s.queue| ==> !f(s.queue[k]))
      && (s.result == Err(Eof) <==> forall i :: 0 <= i < |wire| ==> Skippable(wire[i], decode, f))
  {
    ReadWireEofIffAllSkippable([], wire, decode, f);
    if ReadWire([], wire, decode, f).result != Err(Eof) {
      ReadWireStopsAtFirstUnskippable([], wire, decode, f);
      ReadWireLeavesSuffix([], wire, decode, f);
      var n := |wire| - |ReadWire([], wire, decode, f).wire|;
      assert [] + Payloads(wire[..n - 1], decode) == Payloads(wire[..n - 1], decode);
    }
    if ReadWire([], wire, decode, f).result.Ok? {
      ReadWireStopsAtFirstUnskippable([], wire, decode, f);
      ReadWireQueuesOnlyRejected([], wire, decode, f);
      ReadWireLeavesSuffix([], wire, decode, f);
      var n := |wire| - |ReadWire([], wire, decode, f).wire|;
      assert [] + Payloads(wire[..n - 1], decode) == Payloads(wire[..n - 1], decode);
    }
  }

  /**
   * The scenario of an early message: the stream holds a candidate and then
   * the code. Waiting for the code queues the candidate; waiting for a
   * candidate next returns it from the queue without reading further.
   */
  lemma EarlyMessageIsBuffered(cand: DeviceResponse, code: CodeResponse, later: seq<Frame>)
    ensures var wire := [Text(Some(EncodeDeviceResponse(cand))), Text(Some(EncodeCode(code)))] + later;
      var first := NextMsg([], wire, DecodeApiResponse, IsCode);
      var second := NextMsg(first.queue, first.wire, DecodeApiResponse, IsDevice);
      && first == Step(Ok(CodeMsg(code)), [DeviceMsg(cand)], later)
      && second == Step(Ok(DeviceMsg(cand)), [], later)
  {
    DecodeEncode(DeviceMsg(cand));
    DecodeEncode(CodeMsg(code));
    var wire := [Text(Some(EncodeDeviceResponse(cand))), Text(Some(EncodeCode(code)))] + later;
    assert wire[1..][1..] == later;
    assert Payload(wire[0], DecodeApiResponse) == Some(DeviceMsg(cand));
    assert Payload(wire[1], DecodeApiResponse) == Some(CodeMsg(code));
    ReadWireSkip([], wire, DecodeApiResponse, IsCode);
    ReadWireStop([DeviceMsg(cand)], wire[1..], DecodeApiResponse, IsCode);
  }
}

=== FILE: model.dfy ===
/**
 * The wire data model of the Doppler pairing API (`doppler-ws/src/model.rs`):
 * the saved-device record, the three server messages and the request body,
 * together with the shape-based decoding of the untagged `ApiResponse` union
 * and the JSON that the derived `Serialize` implementations produce.
 *
 * JSON is modelled as a small value datatype; an object is a map from keys to
 * values, so only the field lookups that the derived `Deserialize`
 * implementations perform are modelled, not the text syntax.
 */
module Model {
  import opened Results

  datatype Json =
    | JNull
    | JBool(b: bool)
    | JNumber(n: int)
    | JString(s: string)
    | JArray(items: seq<Json>)
    | JObject(fields: map<string, Json>)

  /** A saved device ("push token"); `name` and `id` identify it locally. */
  datatype Device = Device(name: Option<string>, id: Option<string>, user: string, device: string)

  /** The pairing code, sent once right after the connection opens. */
  datatype CodeResponse = CodeResponse(code: string)

  /** A candidate device; `deviceType` is the wire field `type`, `id` the wire field `device`. */
  datatype DeviceResponse = DeviceResponse(deviceType: string, id: string, isSaved: Option<bool>)

  /** The device's LAN URL, with a push token when the device asks to be saved. */
  datatype LanUrlResponse = LanUrlResponse(urlLan: string, pushToken: Option<Device>)

  /** Body of the saved-device request. */
  datatype SpecificDeviceRequest = SpecificDeviceRequest(code: string, pushToken: Device)

  /** Meta-information a device reports about itself. */
  datatype DeviceInfo = DeviceInfo(
    deviceName: string,
    knownFileExtensions: seq<string>,
    supportedMimetypes: seq<string>,
    appName: string,
    appVersion: int)

  /** Every message the pairing server sends; the wire form carries no tag. */
  datatype ApiResponse =
    | CodeMsg(code: CodeResponse)
    | DeviceMsg(device: DeviceResponse)
    | LanUrlMsg(lanUrl: LanUrlResponse)

  /** The three filters `get_response!` builds with `matches!`. */
  predicate IsCode(r: ApiResponse) { r.CodeMsg? }
  predicate IsDevice(r: ApiResponse) { r.DeviceMsg? }
  predicate IsLanUrl(r: ApiResponse) { r.LanUrlMsg? }

  /** The token form of a saved device: the identifying fields are dropped. */
  function ForRequest(d: Device): (t: Device)
    ensures t.name == None && t.id == None
    ensures t.user == d.user && t.device == d.device
  {
    Device(None, None, d.user, d.device)
  }

  /** `DeviceResponse::id`: the wire field `device`. */
  function ReportedId(r: DeviceResponse): string
  {
    r.id
  }

  // ------ Field decoding, as the derived `Deserialize` does it ------

  /** A required `String` field: present and a string. */
  function StringField(o: map<string, Json>, key: string): Option<string>
  {
    if key in o && o[key].JString? then Some(o[key].s) else None
  }

  /**
   * An `Option<String>` field: `Some(None)` when absent or `null`,
   * `Some(Some(s))` for a string, `None` (a decoding failure) otherwise.
   */
  function OptionalStringField(o: map<string, Json>, key: string): Option<Option<string>>
  {
    if key !in o || o[key].JNull? then Some(None)
    else if o[key].JString? then Some(Some(o[key].s))
    else None
  }

  /** An `Option<bool>` field, with the same convention as `OptionalStringField`. */
  function OptionalBoolField(o: map<string, Json>, key: string): Option<Option<bool>>
  {
    if key !in o || o[key].JNull? then Some(None)
    else if o[key].JBool? then Some(Some(o[key].b))
    else None
  }

  function DecodeDevice(j: Json): Option<Device>
  {
    match j
    case JObject(o) =>
      (match (OptionalStringField(o, "name"), OptionalStringField(o, "id"), StringField(o, "user"), StringField(o, "device"))
       case (Some(name), Some(id), Some(user), Some(device)) => Some(Device(name, id, user, device))
       case _ => None)
    case _ => None
  }

  function DecodeCode(j: Json): Option<CodeResponse>
  {
    match j
    case JObject(o) =>
      (match StringField(o, "code")
       case Some(c) => Some(CodeResponse(c))
       case None => None)
    case _ => None
  }

  function DecodeDeviceResponse(j: Json): Option<DeviceResponse>
  {
    match j
    case JObject(o) =>
      (match (StringField(o, "type"), StringField(o, "device"), OptionalBoolField(o, "is_saved"))
       case (Some(t), Some(d), Some(s)) => Some(DeviceResponse(t, d, s))
       case _ => None)
    case _ => None
  }

  /** An `Option<Device>` field: absent or `null` is no token; anything else must decode as a device. */
  function OptionalDeviceField(o: map<string, Json>, key: string): Option<Option<Device>>
  {
    if key !in o || o[key].JNull? then Some(None)
    else match DecodeDevice(o[key])
      case Some(d) => Some(Some(d))
      case None => None
  }

  function DecodeLanUrl(j: Json): Option<LanUrlResponse>
  {
    match j
    case JObject(o) =>
      (match (StringField(o, "url_lan"), OptionalDeviceField(o, "push_token"))
       case (Some(u), Some(t)) => Some(LanUrlResponse(u, t))
       case _ => None)
    case _ => None
  }

  /**
   * The untagged union: the variants are tried in declaration order and the
   * first whose required fields are present wins.
   */
  function DecodeApiResponse(j: Json): (r: Option<ApiResponse>)
    ensures r.None? <==> DecodeCode(j).None? && DecodeDeviceResponse(j).None? && DecodeLanUrl(j).None?
    ensures r.Some? && r.value.CodeMsg? ==> DecodeCode(j) == Some(r.value.code)
    ensures r.Some? && r.value.DeviceMsg? ==> DecodeCode(j).None? && DecodeDeviceResponse(j) == Some(r.value.device)
    ensures r.Some? && r.value.LanUrlMsg? ==>
      DecodeCode(j).None? && DecodeDeviceResponse(j).None? && DecodeLanUrl(j) == Some(r.value.lanUrl)
  {
    match DecodeCode(j)
    case Some(c) => Some(CodeMsg(c))
    case None =>
      match DecodeDeviceResponse(j)
      case Some(d) => Some(DeviceMsg(d))
      case None =>
        match DecodeLanUrl(j)
        case Some(l) => Some(LanUrlMsg(l))
        case None => None
  }

  // ------ Encoding, as the derived `Serialize` does it ------

  function OptionalString(v: Option<string>): Json
  {
    match v
    case None => JNull
    case Some(s) => JString(s)
  }

  function EncodeDevice(d: Device): Json
  {
    JObject(map["name" := OptionalString(d.name), "id" := OptionalString(d.id),
                "user" := JString(d.user), "device" := JString(d.device)])
  }

  function EncodeCode(c: CodeResponse): Json
  {
    JObject(map["code" := JString(c.code)])
  }

  function EncodeDeviceResponse(d: DeviceResponse): Json
  {
    JObject(map["type" := JString(d.deviceType), "device" := JString(d.id),
                "is_saved" := match d.isSaved case None => JNull case Some(b) => JBool(b)])
  }

  function EncodeLanUrl(l: LanUrlResponse): Json
  {
    JObject(map["url_lan" := JString(l.urlLan),
                "push_token" := match l.pushToken case None => JNull case Some(d) => EncodeDevice(d)])
  }

  /** The JSON a server sends for a message: the payload struct, with no tag. */
  function EncodeApiResponse(r: ApiResponse): Json
  {
    match r
    case CodeMsg(c) => EncodeCode(c)
    case DeviceMsg(d) => EncodeDeviceResponse(d)
    case LanUrlMsg(l) => EncodeLanUrl(l)
  }

  // ------ Properties ------

  /** Stripping a device twice is stripping it once. */
  lemma ForRequestIdempotent(d: Device)
    ensures ForRequest(ForRequest(d)) == ForRequest(d)
  {
  }

  /** Two devices have the same token form exactly when their `user` and `device` keys agree. */
  lemma ForRequestForgetsIdentity(d1: Device, d2: Device)
    ensures ForRequest(d1) == ForRequest(d2) <==> d1.user == d2.user && d1.device == d2.device
  {
  }

  lemma DecodeEncodeDevice(d: Device)
    ensures DecodeDevice(EncodeDevice(d)) == Some(d)
  {
    var o := EncodeDevice(d).fields;
    assert OptionalStringField(o, "name") == Some(d.name);
    assert OptionalStringField(o, "id") == Some(d.id);
  }

  /**
   * Every message the server can send decodes back to itself: the encodings
   * of the later variants lack the fields the earlier variants require, so
   * declaration order never picks the wrong variant.
   */
  lemma DecodeEncode(r: ApiResponse)
    ensures DecodeApiResponse(EncodeApiResponse(r)) == Some(r)
  {
    var j := EncodeApiResponse(r);
    match r
    case CodeMsg(c) =>
    case DeviceMsg(d) =>
      assert "code" !in j.fields;
      assert DecodeCode(j) == None;
    case LanUrlMsg(l) =>
      assert "code" !in j.fields && "type" !in j.fields;
      assert DecodeCode(j) == None;
      assert DecodeDeviceResponse(j) == None;
      if l.pushToken.Some? {
        DecodeEncodeDevice(l.pushToken.value);
      }
  }

  /**
   * Declaration order decides overlapping shapes: an object carrying a string
   * `code` is a Code message whatever other fields it has.
   */
  lemma CodeWinsOverlaps(o: map<string, Json>, c: string)
    requires "code" in o && o["code"] == JString(c)
    ensures DecodeApiResponse(JObject(o)) == Some(CodeMsg(CodeResponse(c)))
  {
  }

  /**
   * Each decoded variant had its required string fields, and no earlier
   * variant matched: a Device message had no string `code`, a LanUrl message
   * had neither a string `code` nor the fields of a Device message.
   */
  lemma DecodedVariantHasItsFields(j: Json)
    ensures DecodeApiResponse(j).Some? ==> j.JObject?
    ensures DecodeApiResponse(j).Some? && DecodeApiResponse(j).value.DeviceMsg? ==>
      && StringField(j.fields, "code").None?
      && StringField(j.fields, "type").Some? && StringField(j.fields, "device").Some?
    ensures DecodeApiResponse(j).Some? && DecodeApiResponse(j).value.LanUrlMsg? ==>
      && StringField(j.fields, "code").None?
      && DecodeDeviceResponse(j).None?
      && StringField(j.fields, "url_lan").Some?
  {
  }

  /** An object with the Device fields decodes as a Device message even when it also has a `url_lan`. */
  lemma DeviceWinsOverLanUrl(o: map<string, Json>, t: string, d: string, u: string)
    requires "code" !in o && "is_saved" !in o
    ensures DecodeApiResponse(JObject(o["type" := JString(t)]["device" := JString(d)]["url_lan" := JString(u)]))
      == Some(DeviceMsg(DeviceResponse(t, d, None)))
  {
  }

  /** An optional field that is absent decodes exactly like one that is `null`. */
  lemma AbsentIsNull(o: map<string, Json>)
    ensures DecodeApiResponse(JObject(o["is_saved" := JNull])) == DecodeApiResponse(JObject(o - {"is_saved"}))
    ensures DecodeApiResponse(JObject(o["push_token" := JNull])) == DecodeApiResponse(JObject(o - {"push_token"}))
  {
    NullSavedIsAbsent(o);
    NullTokenIsAbsent(o);
  }

  /** The `is_saved` half of `AbsentIsNull`. */
  lemma NullSavedIsAbsent(o: map<string, Json>)
    ensures DecodeApiResponse(JObject(o["is_saved" := JNull])) == DecodeApiResponse(JObject(o - {"is_saved"}))
  {
    var a := o["is_saved" := JNull];
    var b := o - {"is_saved"};
    assert StringField(a, "code") == StringField(b, "code");
    assert StringField(a, "type") == StringField(b, "type");
    assert StringField(a, "device") == StringField(b, "device");
    assert StringField(a, "url_lan") == StringField(b, "url_lan");
    assert OptionalDeviceField(a, "push_token") == OptionalDeviceField(b, "push_token");
  }

  /** The `push_token` half of `AbsentIsNull`. */
  lemma NullTokenIsAbsent(o: map<string, Json>)
    ensures DecodeApiResponse(JObject(o["push_token" := JNull])) == DecodeApiResponse(JObject(o - {"push_token"}))
  {
    var c := o["push_token" := JNull];
    var d := o - {"push_token"};
    assert StringField(c, "code") == StringField(d, "code");
    assert StringField(c, "type") == StringField(d, "type");
    assert StringField(c, "device") == StringField(d, "device");
    assert StringField(c, "url_lan") == StringField(d, "url_lan");
    assert OptionalBoolField(c, "is_saved") == OptionalBoolField(d, "is_saved");
  }

  /** `DeviceResponse::id` hands back exactly the string that arrived in the wire field `device`. */
  lemma ReportedIdIsWireDevice(j: Json)
    requires DecodeDeviceResponse(j).Some?
    ensures j.JObject? && "device" in j.fields
    ensures j.fields["device"] == JString(ReportedId(DecodeDeviceResponse(j).value))
  {
  }

  /** Fields no variant names are ignored. */
  lemma UnknownFieldIgnored(o: map<string, Json>, key: string, v: Json)
    requires key !in {"code", "type", "device", "is_saved", "url_lan", "push_token"}
    ensures DecodeApiResponse(JObject(o[key := v])) == DecodeApiResponse(JObject(o))
  {
    var a := o[key := v];
    assert StringField(a, "code") == StringField(o, "code");
    assert StringField(a, "type") == StringField(o, "type");
    assert StringField(a, "device") == StringField(o, "device");
    assert StringField(a, "url_lan") == StringField(o, "url_lan");
    assert OptionalBoolField(a, "is_saved") == OptionalBoolField(o, "is_saved");
    assert OptionalDeviceField(a, "push_token") == OptionalDeviceField(o, "push_token");
  }
}

=== FILE: paths.dfy ===
/**
 * The two `std::path::Path` queries the device client relies on, for Unix
 * paths written as strings: `file_name` (the last normal component) and
 * `extension` (the text after the last dot of the file name, unless that dot
 * starts the name).
 */
module Paths {
  import opened Results

  /** The text after the last `c` in `s`; all of `s` when `c` does not occur. */
  function AfterLast(s: string, c: char): (r: string)
    ensures |r| <= |s| && r == s[|s| - |r|..]
    ensures c !in r
    ensures |r| < |s| ==> s[|s| - |r| - 1] == c
  {
    if |s| == 0 then ""
    else if s[|s| - 1] == c then ""
    else AfterLast(s[..|s| - 1], c) + [s[|s| - 1]]
  }

  /**
   * Drops what `Path::components` ignores at the end of a path: trailing
   * separators and trailing `.` components (a lone `.` is the current
   * directory, which is not a file name either).
   */
  function TrimTail(p: string): (r: string)
    ensures |r| <= |p| && r == p[..|r|]
    ensures r != "" ==> r[|r| - 1] != '/' && r != "." && !(|r| >= 2 && r[|r| - 2] == '/' && r[|r| - 1] == '.')
    decreases |p|
  {
    if |p| == 0 then ""
    else if p[|p| - 1] == '/' then
      var r := TrimTail(p[..|p| - 1]);
      assert p[..|p| - 1][..|r|] == p[..|r|];
      r
    else if |p| == 1 && p[0] == '.' then ""
    else if |p| >= 2 && p[|p| - 2] == '/' && p[|p| - 1] == '.' then
      var r := TrimTail(p[..|p| - 2]);
      assert p[..|p| - 2][..|r|] == p[..|r|];
      r
    else
      assert p[..|p|] == p;
      p
  }

  /** A component that can be a file name: not empty, no separator, neither `.` nor `..`. */
  predicate NormalName(n: string)
  {
    n != "" && '/' !in n && n != "." && n != ".."
  }

  /** `Path::file_name`: the last component when it is a normal one. */
  function FileName(p: string): (r: Option<string>)
    ensures r.Some? ==> NormalName(r.value)
  {
    var t := TrimTail(p);
    if t == "" then None
    else
      var name := AfterLast(t, '/');
      if name == ".." then None else Some(name)
  }

  /** `Path::extension` applied to a file name. */
  function Extension(name: string): (r: Option<string>)
    ensures r.Some? ==>
      && '.' !in r.value
      && |r.value| + 1 < |name|
      && name == name[..|name| - |r.value| - 1] + "." + r.value
  {
    if name == ".." || '.' !in name then None
    else
      var after := AfterLast(name, '.');
      var before := name[..|name| - |after| - 1];
      if before == "" then None
      else
        assert name == before + "." + after;
        Some(after)
  }

  /** The extension of a path: none when it has no file name. */
  function PathExtension(p: string): Option<string>
  {
    match FileName(p)
    case None => None
    case Some(n) => Extension(n)
  }

  // ------ Properties ------

  lemma {:induction false} AfterLastOfAppend(s: string, c: char, tail: string)
    requires c !in tail
    ensures AfterLast(s + [c] + tail, c) == tail
    decreases |tail|
  {
    var whole := s + [c] + tail;
    if |tail| == 0 {
      assert whole[|whole| - 1] == c;
    } else {
      var last := tail[|tail| - 1];
      assert last in tail;
      assert whole[..|whole| - 1] == s + [c] + tail[..|tail| - 1];
      AfterLastOfAppend(s, c, tail[..|tail| - 1]);
      assert tail == tail[..|tail| - 1] + [last];
    }
  }

  lemma AfterLastWithout(s: string, c: char)
    requires c !in s
    ensures AfterLast(s, c) == s
  {
  }

  /** Joining a directory and a normal name gives back that name as the file name. */
  lemma FileNameOfJoin(dir: string, name: string)
    requires NormalName(name)
    ensures FileName(dir + "/" + name) == Some(name)
  {
    var p := dir + "/" + name;
    assert p[|p| - 1] == name[|name| - 1];
    if |name| == 1 {
      assert name[0] != '/' && name != ".";
      assert p[|p| - 2..] == "/" + name;
    } else {
      assert p[|p| - 2..] == name[|name| - 2..];
      assert name[|name| - 2] in name;
    }
    assert TrimTail(p) == p;
    AfterLastOfAppend(dir, '/', name);
    assert p == dir + ['/'] + name;
  }

  /** A bare normal name is its own file name. */
  lemma FileNameOfBareName(name: string)
    requires NormalName(name)
    ensures FileName(name) == Some(name)
  {
    if |name| >= 2 {
      assert name[|name| - 2] in name;
    }
    assert name[|name| - 1] in name;
    assert TrimTail(name) == name;
    AfterLastWithout(name, '/');
  }

  /** Paths that name no file: the empty path, the root, the current and the parent directory. */
  lemma NoFileName(dir: string)
    ensures FileName("") == None
    ensures FileName("/") == None
    ensures FileName(".") == None
    ensures FileName(dir + "/..") == None
  {
    var p := dir + "/..";
    assert p[|p| - 1] == '.';
    assert p[|p| - 2..] == "..";
    assert TrimTail(p) == p;
    assert p == dir + ['/'] + "..";
    AfterLastOfAppend(dir, '/', "..");
  }

  /**
   * A non-empty stem, a dot and a dot-free extension give back that
   * extension, except for the name `..`, which has none.
   */
  lemma ExtensionOfJoin(stem: string, ext: string)
    requires stem != "" && '.' !in ext
    requires stem + "." + ext != ".."
    ensures Extension(stem + "." + ext) == Some(ext)
  {
    var name := stem + "." + ext;
    assert name[|stem|] == '.';
    AfterLastOfAppend(stem, '.', ext);
    assert name == stem + ['.'] + ext;
    assert name[..|name| - |ext| - 1] == stem;
  }

  /** A name without a dot, or whose only dot starts it, has no extension. */
  lemma NoExtension(name: string)
    requires '.' !in name
    ensures Extension(name) == None
    ensures Extension("." + name) == None
  {
    var dotted := "." + name;
    assert dotted == [] + ['.'] + name;
    AfterLastOfAppend([], '.', name);
    assert dotted[..|dotted| - |name| - 1] == "";
  }
}

=== FILE: radarsync.dfy ===
/**
 * The decisions of the `radarsync` command-line tool (`radarsync/src/main.rs`):
 * the log level chosen from the flags, the pairing flow, whether to save the
 * paired device, which files to send, and the upload loop, which sends them
 * one after another and stops at the first failure.
 *
 * The file system, the device library database and the network are inputs:
 * whether an argument is a directory and what walking it found, what
 * `mime_guess` guesses for each file, the library's answers, and the
 * outcome of each open and each upload request.
 */
module Radarsync {
  import opened Results
  import opened Errors
  import opened Model
  import opened Mailbox
  import opened Paths
  import opened DeviceApi
  import opened Transfer

  // ------ Log level (`main`) ------

  /** An unsigned byte (`u8`), the type of the `-v` counter. */
  type U8 = x: int | 0 <= x < 256

  /** `tracing`'s `LevelFilter`, from silent to most verbose. */
  datatype LevelFilter = Off | Error | Warn | Info | Debug | Trace

  /** How much a filter lets through: each level admits one more kind of event than the one before. */
  function Verbosity(l: LevelFilter): nat
  {
    match l
    case Off => 0
    case Error => 1
    case Warn => 2
    case Info => 3
    case Debug => 4
    case Trace => 5
  }

  /** `-q` silences everything; otherwise each `-v` raises the level one step above WARN, up to TRACE. */
  function LogLevel(quiet: bool, verbose: U8): (r: LevelFilter)
    ensures quiet ==> r == Off
    ensures !quiet ==> Verbosity(r) == Verbosity(Warn) + (if verbose < 3 then verbose else 3)
  {
    if quiet then Off
    else if verbose == 0 then Warn
    else if verbose == 1 then Info
    else if verbose == 2 then Debug
    else Trace
  }

  /** More `-v` flags never make the output quieter. */
  lemma LogLevelMonotone(v1: U8, v2: U8)
    requires v1 <= v2
    ensures Verbosity(LogLevel(false, v1)) <= Verbosity(LogLevel(false, v2))
  {
  }

  // ------ Errors (`anyhow`) ------

  /** The run's error: a library error, a file-system I/O error, a `bail!` message, or one wrapped in context. */
  datatype AppError =
    | Api(api: ApiError)
    | FileIo
    | Bail(message: string)
    | Context(context: string, source: AppError)

  // ------ File selection ------

  /** A file and the MIME types `mime_guess` guesses for it, most likely first. */
  datatype Entry = Entry(path: string, guesses: seq<Mime>)

  /**
   * How a recursive directory walk (`get_dir_paths`) fails: listing some
   * directory failed outright (a bare I/O error), or reading one of the
   * entries of directory `dir` failed (an I/O error given the context
   * "while recursing `dir`").
   */
  datatype WalkError = ReadDirFailed | EntryFailed(dir: string)

  /** The error a failed walk passes on. */
  function WalkFailure(w: WalkError): AppError
  {
    match w
    case ReadDirFailed => FileIo
    case EntryFailed(dir) => Context("while recursing " + dir, FileIo)
  }

  /**
   * A command-line path: a file (with its guesses), or a directory with what
   * walking it recursively produced: the files found, or how the walk failed.
   */
  datatype InputPath =
    | FileArg(file: Entry)
    | DirArg(path: string, listing: Result<seq<Entry>, WalkError>)

  /** A file chosen for upload, with the MIME type it is sent as. */
  datatype Selected = Selected(path: string, mime: Mime)

  /** `Iterator::find` over the guesses: the first one the device supports. */
  function FirstSupported(device: DeviceClient, guesses: seq<Mime>): (r: Option<Mime>)
    ensures r.None? <==> forall i :: 0 <= i < |guesses| ==> !MimeSupported(device, guesses[i])
    ensures r.Some? ==> exists i :: (0 <= i < |guesses| && guesses[i] == r.value
      && MimeSupported(device, r.value)
      && forall j :: 0 <= j < i ==> !MimeSupported(device, guesses[j]))
  {
    if |guesses| == 0 then None
    else if MimeSupported(device, guesses[0]) then Some(guesses[0])
    else
      var rest := FirstSupported(device, guesses[1..]);
      if rest.Some? then
        ghost var i :| 0 <= i < |guesses[1..]| && guesses[1..][i] == rest.value
          && forall j :: 0 <= j < i ==> !MimeSupported(device, guesses[1..][j]);
        assert guesses[i + 1] == rest.value;
        rest
      else
        rest
  }

  /** The `filter_map` over a walked directory: files with no supported guess are dropped. */
  function SelectEntries(device: DeviceClient, entries: seq<Entry>): (r: seq<Selected>)
    ensures |r| <= |entries|
    ensures forall k :: 0 <= k < |r| ==> MimeSupported(device, r[k].mime)
  {
    if |entries| == 0 then []
    else
      var rest := SelectEntries(device, entries[1..]);
      match FirstSupported(device, entries[0].guesses)
      case None => rest
      case Some(m) => [Selected(entries[0].path, m)] + rest
  }

  /**
   * The loop over the command-line paths: a directory is skipped without
   * `-r` and walked with it; a file with no supported guess ends the run.
   */
  function Select(device: DeviceClient, args: seq<InputPath>, recurse: bool): (r: Result<seq<Selected>, AppError>)
    ensures r.Ok? ==> forall k :: 0 <= k < |r.value| ==> MimeSupported(device, r.value[k].mime)
    ensures !recurse && r.Err? ==> r.error.Bail?
  {
    if |args| == 0 then Ok([])
    else
      var head :=
        match args[0]
        case DirArg(p, listing) =>
          if !recurse then Ok([])
          else (match listing case Err(w) => Err(WalkFailure(w)) case Ok(es) => Ok(SelectEntries(device, es)))
        case FileArg(e) =>
          (match FirstSupported(device, e.guesses)
           case None => Err(Bail(e.path + ": unsupported mime type"))
           case Some(m) => Ok([Selected(e.path, m)]));
      match head
      case Err(e) => Err(e)
      case Ok(chosen) =>
        match Select(device, args[1..], recurse)
        case Err(e) => Err(e)
        case Ok(more) => Ok(chosen + more)
  }

  const NoMusicFiles: string := "No music files were found"

  /** The selection, with an empty one treated as an error. */
  function SelectFiles(device: DeviceClient, args: seq<InputPath>, recurse: bool): (r: Result<seq<Selected>, AppError>)
    ensures r.Ok? <==> Select(device, args, recurse).Ok? && |Select(device, args, recurse).value| > 0
    ensures r.Ok? ==> |r.value| > 0 && Select(device, args, recurse) == r
    ensures Select(device, args, recurse).Err? ==> r == Select(device, args, recurse)
    ensures r == Err(Bail(NoMusicFiles)) <==> Select(device, args, recurse) == Ok([])
  {
    match Select(device, args, recurse)
    case Err(e) =>
      assert e != Bail(NoMusicFiles) by {
        SelectErrorIsAFault(device, args, recurse);
        var i :| 0 <= i < |args| && Fault(device, args[i], recurse) == Some(e);
        FaultIsNotNoMusic(device, args[i], recurse);
      }
      Err(e)
    case Ok(chosen) => if |chosen| == 0 then Err(Bail(NoMusicFiles)) else Ok(chosen)
  }

  /** The files an argument offers for selection, in order. */
  function Offered(arg: InputPath, recurse: bool): seq<Entry>
  {
    match arg
    case FileArg(e) => [e]
    case DirArg(_, listing) => if recurse && listing.Ok? then listing.value else []
  }

  function AllOffered(args: seq<InputPath>, recurse: bool): seq<Entry>
  {
    if |args| == 0 then [] else Offered(args[0], recurse) + AllOffered(args[1..], recurse)
  }

  /** The error an argument ends the run with, if any. */
  function Fault(device: DeviceClient, arg: InputPath, recurse: bool): Option<AppError>
  {
    match arg
    case FileArg(e) =>
      if FirstSupported(device, e.guesses).None? then Some(Bail(e.path + ": unsupported mime type")) else None
    case DirArg(_, listing) =>
      if recurse && listing.Err? then Some(WalkFailure(listing.error)) else None
  }

  /** Every selection error is the fault of some argument. */
  lemma {:induction false} SelectErrorIsAFault(device: DeviceClient, args: seq<InputPath>, recurse: bool)
    ensures Select(device, args, recurse).Err? ==>
      exists i :: 0 <= i < |args| && Fault(device, args[i], recurse) == Some(Select(device, args, recurse).error)
    decreases |args|
  {
    if |args| > 0 {
      SelectErrorIsAFault(device, args[1..], recurse);
      var r := Select(device, args, recurse);
      if r.Err? && Fault(device, args[0], recurse) != Some(r.error) {
        var i :| 0 <= i < |args[1..]| && Fault(device, args[1..][i], recurse) == Some(r.error);
        assert args[i + 1] == args[1..][i];
      }
    }
  }

  /** No argument's fault reads as the empty-selection message. */
  lemma FaultIsNotNoMusic(device: DeviceClient, arg: InputPath, recurse: bool)
    ensures Fault(device, arg, recurse) != Some(Bail(NoMusicFiles))
  {
    if arg.FileArg? && Fault(device, arg, recurse).Some? {
      var m := arg.file.path + ": unsupported mime type";
      assert m[|m| - 1] == 'e';
      assert NoMusicFiles[|NoMusicFiles| - 1] == 'd';
    }
  }

  /** No argument before index `i` is at fault. */
  predicate FaultFreeBefore(device: DeviceClient, args: seq<InputPath>, recurse: bool, i: int)
    requires 0 <= i <= |args|
  {
    forall j :: 0 <= j < i ==> Fault(device, args[j], recurse).None?
  }

  /**
   * The selection when no argument is at fault: the per-file choice over
   * every offered file, in argument order.
   */
  lemma {:induction false} SelectWithoutFault(device: DeviceClient, args: seq<InputPath>, recurse: bool)
    requires FaultFreeBefore(device, args, recurse, |args|)
    ensures Select(device, args, recurse) == Ok(SelectEntries(device, AllOffered(args, recurse)))
    decreases |args|
  {
    if |args| > 0 {
      assert FaultFreeBefore(device, args[1..], recurse, |args| - 1) by {
        forall j | 0 <= j < |args| - 1
          ensures Fault(device, args[1..][j], recurse).None?
        {
          assert args[1..][j] == args[j + 1];
        }
      }
      SelectWithoutFault(device, args[1..], recurse);
      assert Fault(device, args[0], recurse).None?;
      SelectEntriesAppend(device, Offered(args[0], recurse), AllOffered(args[1..], recurse));
      match args[0]
      case FileArg(e) =>
        var m := FirstSupported(device, e.guesses).value;
        assert SelectEntries(device, [e]) == [Selected(e.path, m)];
      case DirArg(_, _) =>
        assert SelectEntries(device, []) == [];
    }
  }

  /** The first argument at fault ends the selection with its error, whatever follows it. */
  lemma {:induction false} SelectAtFirstFault(device: DeviceClient, args: seq<InputPath>, recurse: bool, i: nat)
    requires i < |args| && Fault(device, args[i], recurse).Some?
    requires FaultFreeBefore(device, args, recurse, i)
    ensures Select(device, args, recurse) == Err(Fault(device, args[i], recurse).value)
    decreases i
  {
    if i > 0 {
      assert FaultFreeBefore(device, args[1..], recurse, i - 1) by {
        forall j | 0 <= j < i - 1
          ensures Fault(device, args[1..][j], recurse).None?
        {
          assert args[1..][j] == args[j + 1];
        }
      }
      assert args[1..][i - 1] == args[i];
      SelectAtFirstFault(device, args[1..], recurse, i - 1);
      assert Fault(device, args[0], recurse).None?;
    }
  }

  lemma {:induction false} SelectEntriesAppend(device: DeviceClient, a: seq<Entry>, b: seq<Entry>)
    ensures SelectEntries(device, a + b) == SelectEntries(device, a) + SelectEntries(device, b)
    decreases |a|
  {
    if |a| == 0 {
      assert a + b == b;
    } else {
      assert (a + b)[1..] == a[1..] + b;
      SelectEntriesAppend(device, a[1..], b);
    }
  }

  /** A directory given without `-r` contributes nothing and cannot fail. */
  lemma DirectoryWithoutRecurse(device: DeviceClient, path: string, listing: Result<seq<Entry>, WalkError>, rest: seq<InputPath>)
    ensures Select(device, [DirArg(path, listing)] + rest, false) == Select(device, rest, false)
  {
    assert ([DirArg(path, listing)] + rest)[1..] == rest;
    match Select(device, rest, false)
    case Err(_) =>
    case Ok(more) => assert [] + more == more;
  }

  /**
   * A failed walk under `-r` ends the selection with the walk's own error:
   * a failed directory listing as a bare I/O error, a failed entry read as
   * an I/O error in the context of the directory being read.
   */
  lemma WalkErrorPassedOn(device: DeviceClient, path: string, w: WalkError, rest: seq<InputPath>)
    ensures w.ReadDirFailed? ==> Select(device, [DirArg(path, Err(w))] + rest, true) == Err(FileIo)
    ensures w.EntryFailed? ==>
      Select(device, [DirArg(path, Err(w))] + rest, true) == Err(Context("while recursing " + w.dir, FileIo))
  {
  }

  /** A walked file is selected, with its first supported guess, exactly when one of its guesses is supported. */
  lemma {:induction false} SelectEntriesMembers(device: DeviceClient, entries: seq<Entry>, s: Selected)
    ensures s in SelectEntries(device, entries) <==>
      exists k :: 0 <= k < |entries| && entries[k].path == s.path && FirstSupported(device, entries[k].guesses) == Some(s.mime)
    decreases |entries|
  {
    if |entries| > 0 {
      SelectEntriesMembers(device, entries[1..], s);
      assert forall k :: 1 <= k < |entries| ==> entries[k] == entries[1..][k - 1];
      if s in SelectEntries(device, entries) && s !in SelectEntries(device, entries[1..]) {
        assert entries[0].path == s.path && FirstSupported(device, entries[0].guesses) == Some(s.mime);
      }
      if exists k :: 0 <= k < |entries| && entries[k].path == s.path && FirstSupported(device, entries[k].guesses) == Some(s.mime) {
        var k :| 0 <= k < |entries| && entries[k].path == s.path && FirstSupported(device, entries[k].guesses) == Some(s.mime);
        if k > 0 {
          assert entries[1..][k - 1] == entries[k];
        }
      }
    }
  }

  // ------ Saving the paired device ------

  /** The `matches!(…, Ok(Some(_)))` test: a lookup error counts as "not saved". */
  predicate IsSaved(lookup: Result<Option<Device>, AppError>)
  {
    lookup.Ok? && lookup.value.Some?
  }

  /** The device to add to the library: the push token, when the device asked to be saved and is not yet. */
  function DeviceToSave(device: DeviceClient, isSaved: bool): (r: Option<Device>)
    ensures r.Some? ==> r == PushToken(device)
    ensures r.None? <==> PushToken(device).None? || isSaved
  {
    if PushToken(device).Some? && !isSaved then PushToken(device) else None
  }

  /** A failed lookup never suppresses saving a device that asked for it. */
  lemma LookupErrorStillSaves(device: DeviceClient, err: AppError)
    requires PushToken(device).Some?
    ensures DeviceToSave(device, IsSaved(Err(err))) == PushToken(device)
  {
  }

  // ------ Uploading ------

  /**
   * `process_file`: open the file and read its length (`open` stands for
   * both; `None` is an I/O error), then upload it; an upload error is a
   * library error. The device's response status is not examined.
   */
  function ProcessFile(s: Selected, open: string -> Option<U64>, post: UploadForm -> HttpReply): (r: Result<(), AppError>)
    ensures open(s.path).None? ==> r == Err(FileIo)
    ensures open(s.path).Some? && FileName(s.path).None? ==> r == Err(Api(InvalidPath))
    ensures r.Ok? <==>
      && open(s.path).Some? && FileName(s.path).Some?
      && post(UploadForm(FileName(s.path).value, open(s.path).value, s.mime)).Status?
    ensures r.Err? && open(s.path).Some? && FileName(s.path).Some? ==> r == Err(Api(Http))
  {
    match open(s.path)
    case None => Err(FileIo)
    case Some(len) =>
      match Upload(s.path, len, s.mime, post).result
      case Ok(_) => Ok(())
      case Err(e) => Err(Api(e))
  }

  /**
   * The upload loop: the files go one at a time in selection order, each
   * through `process` (`ProcessFile` in a run); the first failure stops the
   * loop and is reported with the file's path. `attempted` is the prefix of
   * the selection that was processed.
   */
  method UploadAll(selected: seq<Selected>, process: Selected -> Result<(), AppError>)
    returns (attempted: seq<Selected>, result: Result<(), AppError>)
    ensures |attempted| <= |selected| && attempted == selected[..|attempted|]
    ensures result.Ok? <==> forall k :: 0 <= k < |selected| ==> process(selected[k]).Ok?
    ensures result.Ok? ==> attempted == selected
    ensures result.Err? ==>
      var n := |attempted|;
      && 0 < n
      && (forall k :: 0 <= k < n - 1 ==> process(selected[k]).Ok?)
      && process(selected[n - 1]).Err?
      && result.error == Context(selected[n - 1].path, process(selected[n - 1]).error)
  {
    var i := 0;
    while i < |selected|
      invariant 0 <= i <= |selected|
      invariant forall k :: 0 <= k < i ==> process(selected[k]).Ok?
    {
      var outcome := process(selected[i]);
      if outcome.Err? {
        attempted := selected[..i + 1];
        result := Err(Context(selected[i].path, outcome.error));
        return;
      }
      i := i + 1;
    }
    attempted := selected;
    result := Ok(());
  }

  // ------ The whole run (`app_main`) ------

  /** The library database, as the lookups the run makes of it. */
  datatype Library = Library(
    getDevice: string -> Result<Option<Device>, AppError>,
    getDeviceById: string -> Result<Option<Device>, AppError>)

  /** The parsed command line. */
  datatype Args = Args(verbose: U8, quiet: bool, recurse: bool, device: Option<string>, noQr: bool, paths: seq<InputPath>)

  /** Everything outside the program that the run observes. */
  datatype World = World(
    wire: seq<Frame>,
    library: Result<Library, AppError>,
    requestDevice: HttpReply,
    urlParses: string -> bool,
    deviceInfo: Option<DeviceInfo>,
    addDevice: Result<(), AppError>,
    open: string -> Option<U64>,
    post: UploadForm -> HttpReply)

  /**
   * The pairing step: with `--device`, the named saved device is looked up
   * and asked for; otherwise the pairing code is shown and the first
   * candidate is awaited.
   */
  function Pair(client: TransferClient, library: Library, name: Option<string>, reply: HttpReply): (r: Result<Reply<DeviceResponse>, AppError>)
    ensures name.None? ==> r == Ok(GetNewDevice(client))
    ensures name.Some? && library.getDevice(name.value) == Ok(None) ==> r == Err(Bail("Device name not found"))
    ensures name.Some? && library.getDevice(name.value).Err? ==> r == Err(library.getDevice(name.value).error)
    ensures name.Some? && library.getDevice(name.value).Ok? && library.getDevice(name.value).value.Some? ==>
      r == Ok(GetSavedDevice(client, library.getDevice(name.value).value.value, reply))
    ensures r.Ok? && name.Some? ==>
      library.getDevice(name.value).Ok? && library.getDevice(name.value).value.Some?
      && r.value == GetSavedDevice(client, library.getDevice(name.value).value.value, reply)
  {
    match name
    case None => Ok(GetNewDevice(client))
    case Some(n) =>
      match library.getDevice(n)
      case Err(e) => Err(e)
      case Ok(None) => Err(Bail("Device name not found"))
      case Ok(Some(d)) => Ok(GetSavedDevice(client, d, reply))
  }

  /** Where pairing leaves the run: the pairing client, the open library and the candidate device. */
  datatype Candidate = Candidate(client: TransferClient, library: Library, device: DeviceResponse)

  /**
   * The first part of `app_main`: connect, open the library, pair. A
   * connection error gets the context "Error accessing Doppler API" and an
   * error of the pairing client "Failed to pair"; the library's own errors
   * and "Device name not found" escape without context.
   */
  function PairingStage(args: Args, world: World): (r: Result<Candidate, AppError>)
    ensures Connect(world.wire).Err? ==>
      r == Err(Context("Error accessing Doppler API", Api(Connect(world.wire).error)))
    ensures Connect(world.wire).Ok? && world.library.Err? ==> r == Err(world.library.error)
    ensures Connect(world.wire).Ok? && world.library.Ok? ==>
      var p := Pair(Connect(world.wire).value, world.library.value, args.device, world.requestDevice);
      && (p.Err? ==> r == Err(p.error))
      && (p.Ok? && p.value.result.Err? ==> r == Err(Context("Failed to pair", Api(p.value.result.error))))
      && (p.Ok? && p.value.result.Ok? ==>
            r == Ok(Candidate(p.value.client, world.library.value, p.value.result.value)))
  {
    match Connect(world.wire)
    case Err(e) => Err(Context("Error accessing Doppler API", Api(e)))
    case Ok(client) =>
      match world.library
      case Err(e) => Err(e)
      case Ok(library) =>
        match Pair(client, library, args.device, world.requestDevice)
        case Err(e) => Err(e)
        case Ok(reply) =>
          match reply.result
          case Err(e) => Err(Context("Failed to pair", Api(e)))
          case Ok(device) => Ok(Candidate(reply.client, library, device))
  }

  /** Pairing with `--device` only ever yields the named saved device: the candidate carries its id. */
  lemma NamedPairingYieldsNamedDevice(args: Args, world: World)
    requires args.device.Some? && PairingStage(args, world).Ok?
    ensures world.library.Ok?
    ensures var found := world.library.value.getDevice(args.device.value);
      found.Ok? && found.value.Some? && found.value.value.id == Some(PairingStage(args, world).value.device.id)
  {
  }

  /** Pairing by code yields the first candidate the server sends after the code. */
  lemma CodePairingYieldsFirstCandidate(args: Args, world: World)
    requires args.device.None? && PairingStage(args, world).Ok?
    ensures Connect(world.wire).Ok?
    ensures Next(Connect(world.wire).value, IsDevice).result == Ok(DeviceMsg(PairingStage(args, world).value.device))
  {
  }

  /**
   * What uploading `selection` file by file through `ProcessFile` reports:
   * the attempted files are a prefix of the selection; the result is Ok
   * exactly when every file uploads, and then every file was attempted;
   * otherwise the last attempted file is the first that failed, and the
   * error is its own, in the context of its path.
   */
  predicate UploadReport(selection: seq<Selected>, attempted: seq<Selected>, result: Result<(), AppError>,
                         open: string -> Option<U64>, post: UploadForm -> HttpReply)
  {
    && |attempted| <= |selection| && attempted == selection[..|attempted|]
    && (result.Ok? <==> forall k :: 0 <= k < |selection| ==> ProcessFile(selection[k], open, post).Ok?)
    && (result.Ok? ==> attempted == selection)
    && (result.Err? ==>
          && attempted != []
          && var last := attempted[|attempted| - 1];
            && (forall k :: 0 <= k < |attempted| - 1 ==> ProcessFile(attempted[k], open, post).Ok?)
            && ProcessFile(last, open, post).Err?
            && result.error == Context(last.path, ProcessFile(last, open, post).error))
  }

  /** The upload loop as a run uses it: each file through `ProcessFile`. */
  method UploadSelection(selection: seq<Selected>, open: string -> Option<U64>, post: UploadForm -> HttpReply)
    returns (attempted: seq<Selected>, result: Result<(), AppError>)
    ensures UploadReport(selection, attempted, result, open, post)
  {
    var process := s => ProcessFile(s, open, post);
    assert forall s :: process(s) == ProcessFile(s, open, post);
    attempted, result := UploadAll(selection, process);
    if result.Err? {
      assert attempted[|attempted| - 1] == selection[|attempted| - 1];
    }
  }

  /**
   * The second part of `app_main`, once the device client exists: add the
   * device to the library when it asks to be saved and is not yet, select
   * the files, upload them. Reports the device it tried to add, the
   * selection and the files it attempted to upload.
   */
  method SaveAndUpload(device: DeviceClient, isSaved: bool, args: Args, world: World)
    returns (result: Result<(), AppError>, saved: Option<Device>, selection: seq<Selected>, attempted: seq<Selected>)
    ensures saved == DeviceToSave(device, isSaved)
    ensures saved.Some? && world.addDevice.Err? ==>
      result == Err(Context("Couldn't save device to database", world.addDevice.error)) && attempted == []
    ensures saved.None? || world.addDevice.Ok? ==>
      var chosen := SelectFiles(device, args.paths, args.recurse);
      && (chosen.Err? ==> result == Err(chosen.error) && attempted == [])
      && (chosen.Ok? ==> selection == chosen.value && UploadReport(selection, attempted, result, world.open, world.post))
    ensures attempted != [] ==> (saved.None? || world.addDevice.Ok?) && SelectFiles(device, args.paths, args.recurse) == Ok(selection)
    ensures result.Ok? ==> (saved.None? || world.addDevice.Ok?) && SelectFiles(device, args.paths, args.recurse).Ok?
  {
    selection, attempted := [], [];
    saved := DeviceToSave(device, isSaved);
    if saved.Some? && world.addDevice.Err? {
      result := Err(Context("Couldn't save device to database", world.addDevice.error));
      return;
    }

    var chosen := SelectFiles(device, args.paths, args.recurse);
    if chosen.Err? {
      result := Err(chosen.error);
      return;
    }
    selection := chosen.value;

    attempted, result := UploadSelection(selection, world.open, world.post);
  }

  /**
   * `app_main`. Besides the result it reports the paired device client (if
   * pairing got that far), whether the device was already in the library,
   * the device it tried to add to the library, the selection, and the files
   * it attempted to upload.
   */
  method AppMain(args: Args, world: World)
    returns (result: Result<(), AppError>, paired: Option<DeviceClient>, isSaved: bool,
             saved: Option<Device>, selection: seq<Selected>, attempted: seq<Selected>)
    // Pairing, and the library lookup that decides `isSaved`.
    ensures PairingStage(args, world).Err? ==>
      result == Err(PairingStage(args, world).error) && paired.None? && attempted == []
    ensures PairingStage(args, world).Ok? ==>
      var cand := PairingStage(args, world).value;
      && isSaved == IsSaved(cand.library.getDeviceById(ReportedId(cand.device)))
      && var confirmed := ConfirmDevice(cand.client, cand.device, isSaved, world.urlParses, world.deviceInfo).result;
        && (paired.Some? <==> confirmed.Ok?)
        && (confirmed.Ok? ==> paired == Some(confirmed.value))
        && (confirmed.Err? ==> result == Err(Context("Couldn't get device URL", Api(confirmed.error))) && attempted == [])
    // Saving, selecting and uploading.
    ensures paired.Some? ==> saved == DeviceToSave(paired.value, isSaved)
    ensures saved.Some? ==> paired.Some? && saved == PushToken(paired.value) && !isSaved
    ensures paired.Some? && PushToken(paired.value).Some? && !isSaved ==> saved == PushToken(paired.value)
    ensures paired.Some? && saved.Some? && world.addDevice.Err? ==>
      result == Err(Context("Couldn't save device to database", world.addDevice.error)) && attempted == []
    ensures paired.Some? && (saved.None? || world.addDevice.Ok?) ==>
      var chosen := SelectFiles(paired.value, args.paths, args.recurse);
      && (chosen.Err? ==> result == Err(chosen.error) && attempted == [])
      && (chosen.Ok? ==> selection == chosen.value && UploadReport(selection, attempted, result, world.open, world.post))
    ensures attempted != [] ==>
      paired.Some? && SelectFiles(paired.value, args.paths, args.recurse) == Ok(selection)
      && |attempted| <= |selection| && attempted == selection[..|attempted|]
    ensures result.Ok? ==>
      && paired.Some? && (saved.None? || world.addDevice.Ok?)
      && SelectFiles(paired.value, args.paths, args.recurse) == Ok(selection) && |selection| > 0
      && UploadReport(selection, attempted, result, world.open, world.post)
  {
    paired, isSaved, saved, selection, attempted := None, false, None, [], [];
    var stage := PairingStage(args, world);
    if stage.Err? {
      result := Err(stage.error);
      return;
    }
    var cand := stage.value;

    isSaved := IsSaved(cand.library.getDeviceById(ReportedId(cand.device)));

    var confirmation := ConfirmDevice(cand.client, cand.device, isSaved, world.urlParses, world.deviceInfo);
    if confirmation.result.Err? {
      result := Err(Context("Couldn't get device URL", Api(confirmation.result.error)));
      return;
    }
    paired := Some(confirmation.result.value);

    result, saved, selection, attempted := SaveAndUpload(confirmation.result.value, isSaved, args, world);
  }
}

=== FILE: results.dfy ===
/** Failure-carrying wrappers shared by every module: Rust's `Option` and `Result`. */
module Results {

  datatype Option<+T> = None | Some(value: T)

  datatype Result<+T, +E> = Ok(value: T) | Err(error: E)
}

=== FILE: transfer.dfy ===
/**
 * The pairing client (`TransferClient` in `doppler-ws/src/lib.rs`) as a value:
 * the pairing code, the mailbox queue, the frames the websocket has yet to
 * deliver, and the record of everything the client sent. Each operation
 * returns the client it leaves behind.
 *
 * The network is replaced by inputs: the frames the server will send, the
 * HTTP status of the saved-device request, which LAN URLs parse, and the
 * outcome of fetching the device's metadata.
 */
module Transfer {
  import opened Results
  import opened Errors
  import opened Model
  import opened Mailbox
  import opened DeviceApi

  /** What the client sends: a websocket text message, or the saved-device HTTP request. */
  datatype Outgoing = WsText(reply: DeviceResponse) | RequestDevice(body: SpecificDeviceRequest)

  datatype TransferClient = TransferClient(code: string, queue: seq<ApiResponse>, wire: seq<Frame>, sent: seq<Outgoing>)

  /** A result together with the client left behind. */
  datatype Reply<T> = Reply(result: Result<T, ApiError>, client: TransferClient)

  /** `next_msg` on the client's own queue and stream. */
  function Next(c: TransferClient, f: ApiResponse -> bool): Step
  {
    NextMsg(c.queue, c.wire, DecodeApiResponse, f)
  }

  /** The client after a `next_msg` call. */
  function After(c: TransferClient, s: Step): TransferClient
  {
    c.(queue := s.queue, wire := s.wire)
  }

  // `get_response!` for each variant: the filter guarantees the variant, so
  // the field selections below are well defined, which is the proof that
  // the macro's `unreachable!()` arm is never taken.

  function AwaitCode(c: TransferClient): (r: Reply<CodeResponse>)
    ensures r.result.Ok? <==> Next(c, IsCode).result.Ok?
    ensures r.result.Ok? ==> Next(c, IsCode).result.value == CodeMsg(r.result.value)
    ensures r.result.Err? ==> r.result.error == Next(c, IsCode).result.error
    ensures r.client.code == c.code && r.client.sent == c.sent
    ensures r.client.queue == Next(c, IsCode).queue && r.client.wire == Next(c, IsCode).wire
  {
    var s := Next(c, IsCode);
    Reply(match s.result case Ok(m) => Ok(m.code) case Err(e) => Err(e), After(c, s))
  }

  function AwaitDevice(c: TransferClient): (r: Reply<DeviceResponse>)
    ensures r.result.Ok? <==> Next(c, IsDevice).result.Ok?
    ensures r.result.Ok? ==> Next(c, IsDevice).result.value == DeviceMsg(r.result.value)
    ensures r.result.Err? ==> r.result.error == Next(c, IsDevice).result.error
    ensures r.client.code == c.code && r.client.sent == c.sent
    ensures r.client.queue == Next(c, IsDevice).queue && r.client.wire == Next(c, IsDevice).wire
  {
    var s := Next(c, IsDevice);
    Reply(match s.result case Ok(m) => Ok(m.device) case Err(e) => Err(e), After(c, s))
  }

  function AwaitLanUrl(c: TransferClient): (r: Reply<LanUrlResponse>)
    ensures r.result.Ok? <==> Next(c, IsLanUrl).result.Ok?
    ensures r.result.Ok? ==> Next(c, IsLanUrl).result.value == LanUrlMsg(r.result.value)
    ensures r.result.Err? ==> r.result.error == Next(c, IsLanUrl).result.error
    ensures r.client.code == c.code && r.client.sent == c.sent
    ensures r.client.queue == Next(c, IsLanUrl).queue && r.client.wire == Next(c, IsLanUrl).wire
  {
    var s := Next(c, IsLanUrl);
    Reply(match s.result case Ok(m) => Ok(m.lanUrl) case Err(e) => Err(e), After(c, s))
  }

  /**
   * `connect`, once the websocket is open: the code is the first Code
   * message on the stream; every message before it stays queued, in arrival
   * order.
   */
  function Connect(wire: seq<Frame>): (r: Result<TransferClient, ApiError>)
    ensures r.Ok? ==>
      var c := r.value;
      var n := |wire| - |c.wire|;
      && c.sent == []
      && 0 < n && c.wire == wire[n..]
      && Payload(wire[n - 1], DecodeApiResponse) == Some(CodeMsg(CodeResponse(c.code)))
      && c.queue == Payloads(wire[..n - 1], DecodeApiResponse)
      && (forall k :: 0 <= k < |c.queue| ==> !c.queue[k].CodeMsg?)
      && forall i :: 0 <= i < n - 1 ==> Skippable(wire[i], DecodeApiResponse, IsCode)
    ensures r.Err? ==> r.error in {Eof, Websocket, Serde}
    ensures r == Err(Eof) <==> forall i :: 0 <= i < |wire| ==> Skippable(wire[i], DecodeApiResponse, IsCode)
  {
    var a := AwaitCode(TransferClient("", [], wire, []));
    AwaitOnEmptyQueue(wire, DecodeApiResponse, IsCode);
    if a.result.Ok? then Ok(a.client.(code := a.result.value.code)) else Err(a.result.error)
  }

  /** `get_new_device`: wait for the first candidate device. */
  function GetNewDevice(c: TransferClient): (r: Reply<DeviceResponse>)
    ensures r.result.Ok? <==> Next(c, IsDevice).result.Ok?
    ensures r.result.Ok? ==> Next(c, IsDevice).result == Ok(DeviceMsg(r.result.value))
    ensures r.result.Err? ==> r.result.error == Next(c, IsDevice).result.error
    ensures r.result.Err? ==> r.result.error in {Eof, Websocket, Serde}
    ensures r.client.code == c.code && r.client.sent == c.sent
    ensures r.client.queue == Next(c, IsDevice).queue && r.client.wire == Next(c, IsDevice).wire
  {
    AwaitDevice(c)
  }

  /** Statuses the saved-device request accepts: any success, and 500 (a server quirk). */
  predicate Accepted(code: StatusCode)
  {
    IsSuccess(code) || code == 500
  }

  /**
   * `get_saved_device`: a device without an id fails before anything is
   * sent; otherwise the request carrying the code and the device's token
   * form is posted, the status is judged, and only a candidate with the
   * requested id is returned.
   */
  function GetSavedDevice(c: TransferClient, device: Device, reply: HttpReply): (r: Reply<DeviceResponse>)
    ensures device.id.None? ==> r == Reply(Err(DeviceIdMissing), c)
    ensures device.id.Some? ==>
      r.client.sent == c.sent + [RequestDevice(SpecificDeviceRequest(c.code, ForRequest(device)))]
    ensures device.id.Some? && reply.Status? && !Accepted(reply.code) ==>
      r.result == Err(BadResponse(reply.code)) && r.client.queue == c.queue && r.client.wire == c.wire
    ensures r.result.Ok? ==>
      && reply.Status? && Accepted(reply.code)
      && device.id == Some(r.result.value.id)
      && Next(c, IsDevice).result == Ok(DeviceMsg(r.result.value))
    ensures device.id.Some? && reply.Status? && Accepted(reply.code) && Next(c, IsDevice).result.Ok? ==>
      r.result == (if Next(c, IsDevice).result.value.device.id == device.id.value
                   then Ok(Next(c, IsDevice).result.value.device)
                   else Err(UnexpectedDevice))
    ensures r.result == Err(UnexpectedDevice) ==>
      && Next(c, IsDevice).result.Ok?
      && device.id.Some? && Next(c, IsDevice).result.value.device.id != device.id.value
    ensures device.id.Some? && reply.SendFailed? ==>
      r.result == Err(Http) && r.client.queue == c.queue && r.client.wire == c.wire
    ensures device.id.Some? && reply.Status? && Accepted(reply.code) ==>
      && r.client.queue == Next(c, IsDevice).queue && r.client.wire == Next(c, IsDevice).wire
      && (Next(c, IsDevice).result.Err? ==> r.result == Err(Next(c, IsDevice).result.error))
  {
    match device.id
    case None => Reply(Err(DeviceIdMissing), c)
    case Some(deviceId) =>
      var posted := c.(sent := c.sent + [RequestDevice(SpecificDeviceRequest(c.code, ForRequest(device)))]);
      match reply
      case SendFailed => Reply(Err(Http), posted)
      case Status(code) =>
        if Accepted(code) then
          var a := AwaitDevice(posted);
          match a.result
          case Err(e) => a
          case Ok(next) =>
            if next.id == deviceId then a else Reply(Err(UnexpectedDevice), a.client)
        else
          Reply(Err(BadResponse(code)), posted)
  }

  /** What `confirm_device` leaves: the candidate as updated, the result, the client. */
  datatype Confirmation = Confirmation(device: DeviceResponse, result: Result<DeviceClient, ApiError>, client: TransferClient)

  /**
   * `confirm_device`: the candidate's `is_saved` flag is set first, the
   * updated candidate is echoed over the websocket, and the LAN URL that
   * comes back (with its push token) becomes the device client.
   */
  function ConfirmDevice(c: TransferClient, device: DeviceResponse, isSaved: bool, parses: string -> bool, info: Option<DeviceInfo>): (r: Confirmation)
    ensures r.device == DeviceResponse(device.deviceType, device.id, Some(isSaved))
    ensures r.client.sent == c.sent + [WsText(r.device)]
    ensures r.client.code == c.code
    ensures r.result.Ok? ==>
      && Next(c, IsLanUrl).result.Ok?
      && var lan := Next(c, IsLanUrl).result.value.lanUrl;
        && r.result.value.baseUri == lan.urlLan
        && r.result.value.pushToken == lan.pushToken
        && parses(lan.urlLan)
        && info == Some(r.result.value.info)
    ensures Next(c, IsLanUrl).result.Ok? && !parses(Next(c, IsLanUrl).result.value.lanUrl.urlLan) ==>
      r.result == Err(InvalidUrl)
    ensures Next(c, IsLanUrl).result.Ok? ==>
      var lan := Next(c, IsLanUrl).result.value.lanUrl;
      r.result == NewDeviceClient(lan.urlLan, lan.pushToken, parses, info)
    ensures Next(c, IsLanUrl).result.Err? ==> r.result == Err(Next(c, IsLanUrl).result.error)
    ensures r.client.queue == Next(c, IsLanUrl).queue && r.client.wire == Next(c, IsLanUrl).wire
  {
    var confirmed := device.(isSaved := Some(isSaved));
    var echoed := c.(sent := c.sent + [WsText(confirmed)]);
    var a := AwaitLanUrl(echoed);
    match a.result
    case Err(e) => Confirmation(confirmed, Err(e), a.client)
    case Ok(lan) => Confirmation(confirmed, NewDeviceClient(lan.urlLan, lan.pushToken, parses, info), a.client)
  }

  // ------ Properties ------

  /**
   * `connect` is decided by the first frame that does not pass over for
   * the code: a Code message there gives a client with that code, the
   * messages before it queued and the stream after it unread; a transport
   * error or an undecodable text frame there is `connect`'s error.
   */
  lemma {:induction false} ConnectAtFirstStop(wire: seq<Frame>, n: nat)
    requires 0 < n <= |wire|
    requires forall i :: 0 <= i < n - 1 ==> Skippable(wire[i], DecodeApiResponse, IsCode)
    requires !Skippable(wire[n - 1], DecodeApiResponse, IsCode)
    ensures StopResult(wire[n - 1], DecodeApiResponse).Err? ==>
      Connect(wire) == Err(StopResult(wire[n - 1], DecodeApiResponse).error)
    ensures StopResult(wire[n - 1], DecodeApiResponse).Ok? ==>
      && Connect(wire).Ok?
      && Connect(wire).value.wire == wire[n..]
      && Connect(wire).value.queue == Payloads(wire[..n - 1], DecodeApiResponse)
      && Payload(wire[n - 1], DecodeApiResponse) == Some(CodeMsg(CodeResponse(Connect(wire).value.code)))
  {
    var s := NextMsg([], wire, DecodeApiResponse, IsCode);
    AwaitOnEmptyQueue(wire, DecodeApiResponse, IsCode);
    assert s.result != Err(Eof) by {
      assert !Skippable(wire[n - 1], DecodeApiResponse, IsCode);
    }
    var m := |wire| - |s.wire|;
    if m < n {
      assert false;
    }
    if m > n {
      assert false;
    }
  }

  /** Status 500 is treated exactly like any success status. */
  lemma ServerErrorCountsAsSuccess(c: TransferClient, device: Device, ok: StatusCode)
    requires IsSuccess(ok)
    ensures GetSavedDevice(c, device, Status(500)) == GetSavedDevice(c, device, Status(ok))
  {
  }

  /** Whatever the status, a device without an id sends nothing and changes nothing. */
  lemma MissingIdSendsNothing(c: TransferClient, device: Device, reply: HttpReply)
    requires device.id.None?
    ensures GetSavedDevice(c, device, reply).client == c
    ensures GetSavedDevice(c, device, reply).result == Err(DeviceIdMissing)
  {
  }

  /** The saved-device request never carries the device's name or id. */
  lemma RequestCarriesNoIdentity(c: TransferClient, device: Device, reply: HttpReply)
    requires device.id.Some?
    ensures var sent := GetSavedDevice(c, device, reply).client.sent;
      && sent[|sent| - 1].RequestDevice?
      && sent[|sent| - 1].body.pushToken.name == None
      && sent[|sent| - 1].body.pushToken.id == None
  {
  }

  /** The echoed candidate reads back, as the server decodes it, with the flag set. */
  lemma EchoCarriesFlag(c: TransferClient, device: DeviceResponse, isSaved: bool, parses: string -> bool, info: Option<DeviceInfo>)
    ensures var r := ConfirmDevice(c, device, isSaved, parses, info);
      DecodeApiResponse(EncodeDeviceResponse(r.device)) == Some(DeviceMsg(DeviceResponse(device.deviceType, device.id, Some(isSaved))))
  {
    DecodeEncode(DeviceMsg(ConfirmDevice(c, device, isSaved, parses, info).device));
  }

  /**
   * A candidate that arrived while the client was waiting for the code is
   * not lost: `get_new_device` returns it from the queue without reading the
   * stream.
   */
  lemma EarlyCandidateServedFromQueue(cand: DeviceResponse, code: CodeResponse, later: seq<Frame>)
    ensures var wire := [Text(Some(EncodeDeviceResponse(cand))), Text(Some(EncodeCode(code)))] + later;
      && Connect(wire).Ok?
      && Connect(wire).value.code == code.code
      && GetNewDevice(Connect(wire).value).result == Ok(cand)
      && GetNewDevice(Connect(wire).value).client.wire == later
  {
    EarlyMessageIsBuffered(cand, code, later);
  }
}
